=== FILE: README.md ===
# streamparse bolts and the `sparse` command line, in Dafny

This project models two parts of streamparse, the Python library for writing
Apache Storm topologies:

- `Bolt` and `BatchingBolt` (`streamparse/storm/bolt.py`). A bolt receives
  tuples from Storm. It answers heartbeats, passes tick and ordinary tuples to
  the user's hooks, and acks or fails tuples. When the run loop dies, it
  reports the error and fails the tuples it was working on. `BatchingBolt`
  groups tuples by `group_key`, and flushes every batch to `process_batch`
  once more than `ticks_between_batches` ticks have arrived.
- The `sparse` command line (`streamparse/bin/sparse.py`). It discovers the
  subcommand modules, calls their `subparser_hook`, parses the arguments and
  dispatches to the handler they carry.

Each step is a pure function that returns the log it wrote:
- Messages to Storm are `Component.Message` values.
- Command-line effects are `Sparse.Event` values.

The user's hooks (`process`, `process_tick`, `process_batch`,
`subparser_hook`, the subcommand handler) are logged calls. Whether a hook
raises is a parameter:
- `fault` for the bolts;
- `Outcome` for the handler.

The same goes for three things the model cannot see:
- The order in which a Python dictionary yields its keys is the parameter
  `order`, constrained by `BatchingBolt.IsEnumeration`.
- The entries `pkgutil.iter_modules` lists are the parameter `cands`.
- What argparse makes of the command line is the parameter `parse`.

Files:
- `wrappers.dfy`: `Option` and `Result`.
- `component.dfy`: tuples, tuple references, the message log, and the
  heartbeat/tick classification.
- `bolt.dfy`: `Bolt`.
- `batching_bolt.dfy`: `BatchingBolt`.
- `sparse.dfy`: discovery and `main`.

## Behaviour of `main` worth knowing

- A handler that returns normally gives status 0, whatever it returns: the
  return value of `args.func(args)` is ignored (`Sparse.Dispatch`).
- An `AttributeError` raised anywhere inside the handler call is caught by
  the same clause that handles a missing `func`. Help is printed and the
  status is 1 (`Sparse.Dispatch`).
- Nothing checks whether two command modules register the same subcommand
  name.
- A module that fails to import ends `main` with the import's own exception.
- The skip test of discovery looks up the bare module name, not the name the
  import registers; see "## Findings". `Sparse.Main` models discovery as
  written.

## Model

| member | source | states |
|---|---|---|
| `Component.Classify` | streamparse/storm/bolt.py:207-216 | A tuple is a heartbeat iff its task is -1 and its stream is `__heartbeat`. It is a tick iff it comes from `__system` on `__tick`. Otherwise it is ordinary. The three cases are exclusive. |
| `Bolt.Ack` | streamparse/storm/bolt.py:182-189 | Acking sends one ack command for the tuple's id, or for the bare id it was given, and fails nothing. |
| `Bolt.Fail` | streamparse/storm/bolt.py:191-198 | Failing sends one fail command for the tuple's id, or for the bare id, and acks nothing. |
| `Bolt.SendEach` | streamparse/storm/bolt.py:364-366 | Sending one command per tuple of a list gives one message per tuple, and the log sends that command for exactly the ids of the list, in order, and no other command. |
| `Bolt.Emit` | streamparse/storm/bolt.py:135-141 | Explicit anchors are passed on position by position, each Tuple replaced by its id. Without anchors, the request is anchored to the ids of the current tuples when `auto_anchor` is set, and to nothing otherwise. Payload, stream, direct task and `need_task_ids` pass through unchanged. |
| `Bolt.EmitMany` | streamparse/storm/bolt.py:170-180 | A value that is neither a list nor a tuple gives a `TypeError` naming its type, and nothing is emitted. Otherwise there is one emit per payload, in order, each exactly what `emit` with the same arguments makes. |
| `Bolt.Handle` | streamparse/storm/bolt.py:209-216 | The hook is called first, once. The tuple is acked iff the hook returned and `auto_ack` is set, and the log is exactly the call followed by that ack. Nothing is failed. If the hook raised, the incoming tuple remains current. |
| `Bolt.Run` | streamparse/storm/bolt.py:200-219 | A failed read leaves the state as it was and raises. A heartbeat gets a sync reply. A tick goes to `process_tick`, an ordinary tuple to `process`, once, and is acked iff the hook returned and `auto_ack` is set. The log is exactly that call followed by that ack. A completed step leaves no current tuple. |
| `Bolt.HandleRunException` | streamparse/storm/bolt.py:221-232 | The base handler runs first. With exactly one current tuple the error is then reported against it, as the second message, and the tuple is failed iff `auto_fail`. Nothing else is logged. With any other number of tuples, only the base handler runs. It never acks. |
| `Bolt.TupleAnsweredAtMostOnce` | streamparse/storm/bolt.py:205-232 | A received tick or ordinary tuple, followed by the exception handler if its hook raised, is acked (hook returned, `auto_ack`) or failed (hook raised, `auto_fail`), never both. |
| `Bolt.ReadFailureAfterCompletedStepFailsNothing` | streamparse/storm/bolt.py:217-219 | After a completed step, a failing `read_tuple` followed by the exception handler fails nothing. |
| `Bolt.EmitDuringHandlingAnchorsToIncoming` | streamparse/storm/bolt.py:135-137 | While a received tuple is handled, an emit without anchors is anchored to exactly that tuple's id when `auto_anchor` is set. |
| `BatchingBolt.Process` | streamparse/storm/bolt.py:373-382 | The tuple is appended to the end of the batch of its group key. A missing key starts a new batch. Every other batch, the tick counter and the current tuples are unchanged. No batch becomes empty. |
| `BatchingBolt.Emit` | streamparse/storm/bolt.py:325-333 | The base emit with `need_task_ids` forced to False, whatever the caller asked. |
| `BatchingBolt.EmitMany` | streamparse/storm/bolt.py:335-347 | The base `emit_many`. A non-sequence gives a `TypeError` naming its type, and nothing is logged. Otherwise there is one `BatchingBolt.Emit` per payload, in order, none asking for task ids, each logged as one emit. |
| `BatchingBolt.FlushFrom` | streamparse/storm/bolt.py:361-369 | The flush loop from a position raises iff the raising batch is at or after that position, raises that batch's exception, and removes no key. |
| `BatchingBolt.FlushRaises` | streamparse/storm/bolt.py:361-363 | A flush raises exactly when it reaches the batch whose `process_batch` raises, and that batch is then the current tuples. |
| `BatchingBolt.FlushEmpties` | streamparse/storm/bolt.py:361-369 | A flush replaces by the empty list exactly the batches it got through, leaves the others and adds no key. |
| `BatchingBolt.FlushAcks` | streamparse/storm/bolt.py:361-366 | A flush acks, if `auto_ack`, the tuples of the batches it got through, batch after batch in arrival order, and fails none. |
| `BatchingBolt.FlushLog` | streamparse/storm/bolt.py:361-369 | The whole log of a flush: for each batch in dictionary order up to the raising one, `process_batch` is called with that batch's key and tuples. Each batch it got through is then acked (if `auto_ack`), tuple by tuple, before the next call. The raising batch is called and not acked. |
| `BatchingBolt.ProcessTick` | streamparse/storm/bolt.py:349-371 | The counter goes up by one. There is a flush iff the new counter exceeds `ticks_between_batches` and some batch exists. A flush raises iff some `process_batch` raises. A completed flush clears the batches and the counter. A raised flush keeps the incremented counter and every key, with the raising batch current. A tick fails nothing. |
| `BatchingBolt.TickCallsEachBatch` | streamparse/storm/bolt.py:359-369 | A flushing tick calls `process_batch` once per batch, in dictionary order, up to and including the raising one, with each batch's acks (if `auto_ack`) right after its call. A tick that does not flush writes nothing. |
| `BatchingBolt.Run` | streamparse/storm/bolt.py:384-399 | A failed read changes nothing. A heartbeat is answered with sync. A tick runs `process_tick`: the step writes exactly the log `process_tick` writes, with no ack of the tick added, and leaves `process_tick`'s batches and counter (no current tuple once it completes). An ordinary tuple is batched by `process`. A completed step leaves no current tuple. |
| `BatchingBolt.HandleRunException` | streamparse/storm/bolt.py:401-413 | The base handler runs, then the error is reported against the list of current tuples. If `auto_fail`, every batched tuple is failed, batch after batch in dictionary order. Nothing is acked, and nothing else is logged. |
| `BatchingBolt.CompletedFlushAcksEveryBatchedTuple` | streamparse/storm/bolt.py:359-371 | With `auto_ack`, a completed flush acks every batched tuple once, batch after batch in arrival order. |
| `BatchingBolt.FailureAfterPartialFlush` | streamparse/storm/bolt.py:359-413 | When `process_batch` raises at batch j, the batches before j have been acked. The exception handler fails exactly the batches from j on. |
| `BatchingBolt.RunThenFailureAnswersEachBatchedTupleOnce` | streamparse/storm/bolt.py:384-413 | With `auto_ack` and `auto_fail`, a raising step plus the exception handler ack-then-fail every previously batched tuple exactly once, in flush order. |
| `BatchingBolt.NeverAckedAndFailed` | streamparse/storm/bolt.py:364-369 | For tuples with distinct ids, no tuple is both acked by a raising step and failed by the exception handler: emptying each flushed batch is what prevents it. |
| `BatchingBolt.RunAcksOnlyBatchedTuples` | streamparse/storm/bolt.py:384-399 | The ids a step acks are a prefix of the ids of the tuples batched before it, in flush order. |
| `BatchingBolt.RunPreservesWellFormed` | streamparse/storm/bolt.py:380-382 | A completed step never leaves an empty batch behind. |
| `BatchingBolt.DefaultsFlushOnSecondTick` | streamparse/storm/bolt.py:291-299 | The state `__init__` builds holds no batch, is well formed, and does not flush on its first tick. With the default `ticks_between_batches` of 1, take a counter of 0 (as `__init__` and every completed flush leave it) with some batch waiting. The first tick then only counts and writes nothing, and the next tick flushes (the test at line 360). |
| `BatchingBolt.EmitDuringBatchAnchorsToBatch` | streamparse/storm/bolt.py:361-363 | The current tuples during the `process_batch` call for the batch at position k are taken to be what the flush leaves when that call raises. The calls before it are the same either way, by `BatchingBolt.FlushLog`. Those tuples are exactly that batch. So an emit without explicit anchors made during the call is anchored to exactly that batch's ids when `auto_anchor` is set. |
| `BatchingBolt.BatchesExistIffTuplesWaiting` | streamparse/storm/bolt.py:360 | Between steps, some batch exists (the flush test) iff some tuple is waiting. |
| `Sparse.Fold` | streamparse/bin/sparse.py:23-29 | Discovery only adds to the module table. It only executes modules and calls hooks. |
| `Sparse.Import` | streamparse/bin/sparse.py:25-26 | After an import the table holds the module's qualified name. The module's body runs, once, iff that name was not yet in the table, and nothing else happens. |
| `Sparse.Visit` | streamparse/bin/sparse.py:24-29 | A skipped entry changes nothing. Any other entry adds its qualified name to the table, and its hook is called iff the module defines one. Only that module's execution and hook appear. |
| `Sparse.DiscoverAsWritten` | streamparse/bin/sparse.py:18-29 | `load_suparsers` as written. The table only grows, and only module executions and hook calls happen. For plain entry names, the hooks called are those of the reference `Contributors` with the bare-name test against the initial table. The table gains the qualified name of exactly the non-package entries whose bare name was not loaded. Each module body runs exactly once for each name the table gains, and no other module body runs. |
| `Sparse.Discover` | streamparse/bin/sparse.py:18-29 | With the corrected skip test (qualified name), the table gains exactly the qualified names of the non-package entries. For distinct entry names, the hooks called are those of the reference `Contributors` with the qualified-name test. Each module body runs exactly once for each name the table gains, and no other module body runs. |
| `Sparse.ExecutedOnce` | streamparse/bin/sparse.py:23-26 | Under either skip test, the body of a module runs exactly once during discovery if the table gains its name, and not at all otherwise. |
| `Sparse.VisitExecutesOnce` | streamparse/bin/sparse.py:24-26 | One loop iteration runs the body of at most the module it adds to the table, once. |
| `Sparse.VisitSkipRules` | streamparse/bin/sparse.py:24-29 | A skipped entry changes nothing. A package is always skipped. Otherwise the hook is called exactly when the module defines it. |
| `Sparse.HooksFollowEnumeration` | streamparse/bin/sparse.py:23-29 | With the corrected skip test (qualified name) and distinct entry names, the hooks called are those of exactly the entries that pass the skip test and define a hook, once each, in listing order. |
| `Sparse.LoadedAfterDiscovery` | streamparse/bin/sparse.py:23-26 | With the corrected skip test (qualified name), after discovery the table holds what it held plus the qualified name of every listed non-package module, and nothing else. |
| `Sparse.RediscoveryIsNoOp` | streamparse/bin/sparse.py:24-26 | With the skip test on the name the import registers, a second discovery imports nothing and calls no hook. |
| `Sparse.AsWrittenHooks` | streamparse/bin/sparse.py:24-29 | As written, the hooks called are those of the non-package entries whose bare name is not in the table. |
| `Sparse.AsWrittenLoaded` | streamparse/bin/sparse.py:24-26 | As written, for plain entry names, the table gains the qualified name of exactly the non-package entries whose bare name was not loaded. An entry whose qualified name was already loaded is still visited. That its hook is then called is stated by `Sparse.AsWrittenHooks`. |
| `Sparse.AsWrittenRerunRepeatsHooks` | streamparse/bin/sparse.py:24-26 | As written, a second discovery calls every hook of the first one again. |
| `Sparse.AsWrittenRerunImportsNothing` | streamparse/bin/sparse.py:24-26 | As written, for plain entry names, a second discovery imports nothing new. The table stays as the first run left it, and every event is a hook call. |
| `Sparse.AsWrittenRerunCallsHookAgain` | streamparse/bin/sparse.py:24-26 | The smallest instance: one module `submit` with a hook, discovered twice from an empty table, has its hook called both times. |
| `Sparse.FirstDiscoveryAgrees` | streamparse/bin/sparse.py:24-26 | On a first run, where neither name of any entry is loaded, the as-written and corrected skip tests call the same hooks. |
| `Sparse.Dispatch` | streamparse/bin/sparse.py:53-59 | With no handler, help is printed and the status is 1. Otherwise the handler is called exactly once. It ends with status 0 if it returns, with its own status if it exits, and with its exception uncaught if it raises one. If it raises `AttributeError`, help follows and the status is 1. Help appears iff there is no handler or the handler raised `AttributeError`. |
| `Sparse.Main` | streamparse/bin/sparse.py:32-59 | Discovery as written, then exactly one parse, then dispatch. The session holds exactly one `ArgsParsed`, at the index just past the discovery events. Every event before it is a module execution or a hook call. Every event after it is a handler call or the help. So no hook is called after the parse, and neither the handler nor the help comes before it. The events before the parse are exactly those of the as-written discovery. The events after it are exactly those of `Sparse.Dispatch` for the handler parsing finds, so help can follow only a missing handler or one that raised `AttributeError`. The hooks called are those of the as-written discovery: for plain entry names, the non-package entries with a hook whose bare name was not loaded, in listing order. The handler called is the one parsing finds, once. The session ends as dispatch ends, and without a handler with help and status 1. |

## Left out

- Input and output. These are not part of this model:
  - Storm's multilang protocol;
  - how `read_tuple` parses;
  - how `send_message` serialises;
  - logging, and the `run` loop that repeats `_run` and exits.

  Each call of `send_message` or `raise_exception` is one log entry.
- The `Component` base class is not part of this model. The model keeps only
  two effects of its `_handle_run_exception`: it is logged, and it runs first.
- `Bolt.spec`, `BoltSpecification` and the default hook bodies are left out:
  they are topology configuration and user code.
- `Bolt.Emit`: returns the request handed to the base class, not the task ids
  Storm sends back. That reply is input from Storm.
- `Bolt.EmitMany`: returns the list of requests, not the list of task-id
  replies, for the same reason.
- `BatchingBolt.Run`: `group_key` is a total function of the tuple. A
  `group_key` that raises is not modelled. It would take the same exception
  path as a raising `process`.
- An exception raised inside `ack`, `fail` or `send_message` in the middle of
  a flush is not modelled. Those are I/O failures.
- Dictionary iteration order is a parameter. `BatchingBolt.HandleRunException`
  uses the same order as the flush. Between the two, the code only assigns to
  keys that already exist, which does not reorder a dictionary.
- `ticks_between_batches` is an unbounded integer, and the tick counter is
  never wrapped. Python integers do not overflow.
- `Sparse.Import`: an import adds only its own qualified name to the table.
  A module body that imports sibling command modules would also register
  their names. The model does not cover that. With the corrected skip test,
  such a sibling would then be skipped, and its hook never called.
- `Sparse.Import`: the package is the constant `streamparse.bin`. This
  assumes the command-line module is imported as `streamparse.bin.sparse`,
  through the console entry point or `python -m`. Run as a plain script (the
  `__main__` guard at the end of the file), `__package__` is None.
  `import_module('.' + mod_name, None)` then raises `TypeError` at the first
  entry that is not skipped, and discovery never completes.
- `Sparse.LoadedAfterDiscovery`: "nothing else" is added to the table only
  because of the `Sparse.Import` abstraction above. The same holds for
  `Sparse.AsWrittenLoaded` and for the table clauses of `Sparse.Discover` and
  `Sparse.DiscoverAsWritten`.
- `Sparse.Visit`: a `subparser_hook` that raises is not modelled. Its
  exception would propagate out of `main` before parsing.
- Discovery:
  - the entry list comes from `pkgutil.iter_modules` and is a parameter;
  - whether a module defines `subparser_hook` is a flag of the entry;
  - what a hook adds to the parser is not modelled, beyond the call itself.
- A failing import is not modelled. Its exception simply propagates out of
  `main`.
- Argparse's reaction to two command modules registering the same subcommand
  name is not part of this model.
- `Sparse.Dispatch`: a handler that returns normally gives status 0, whatever
  it returns, because the code ignores the handler's return value.
- `Sparse.Main`: argparse is the parameter `parse`, from the hooks that ran
  to the handler the parsed arguments carry. Parse errors, `--help` and the
  help text are left out.

## Findings

| source | as written | input that shows it | evidently intended | confidence | as-written member | corrected member |
|---|---|---|---|---|---|---|
| streamparse/bin/sparse.py:24-26 | The skip test looks up the bare `mod_name` in `sys.modules`. The relative import on line 25 registers the module as `streamparse.bin.<mod_name>`, so the test almost never skips an already-imported command module. It also wrongly skips one whose bare name happens to be a loaded top-level module. | Discovery run twice over one listed module `submit` (not a package, defines `subparser_hook`), from an empty module table. The second run imports nothing new (in general, `Sparse.AsWrittenRerunImportsNothing`) but calls `submit`'s `subparser_hook` again. | The test looks up the name the import registers, so a command module that is already loaded is not visited again. A second discovery then calls no hook. | medium, not executed | `Sparse.AsWrittenRerunCallsHookAgain` | `Sparse.RediscoveryIsNoOp` |

=== FILE: batching_bolt.dfy ===
/**
 BatchingBolt: a bolt that collects ordinary tuples into batches keyed by
 `group_key` and hands each batch to `process_batch` once enough tick tuples
 have arrived. Its state is the map of batches and the tick counter (plus the
 inherited `_current_tups`).

 The user's `group_key` is a parameter; `process_batch` is a logged call that
 raises the exception of `fault` when it is called for the batch at position
 `fault.atBatch` of the flush. The order in which a dictionary yields its keys
 is not fixed by the model: it is a parameter `order` that lists each key of
 the batch map exactly once.
 */
module BatchingBolt {
  import opened Wrappers
  import opened Component
  import Bolt

  /** The inherited switches plus `ticks_between_batches`. */
  datatype Config = Config(bolt: Bolt.Config, ticksBetweenBatches: int)

  /** All switches True and one tick between batches. */
  const Defaults: Config := Config(Bolt.Defaults, 1)

  type Batches = map<GroupKey, seq<StormTuple>>

  /** `_current_tups`, `_batches` and `_tick_counter`. */
  datatype State = State(currentTups: seq<StormTuple>, batches: Batches, tickCounter: int)

  /** The state `__init__` sets up. */
  const Initial: State := State([], map[], 0)

  /** The call of `process_batch` that raises, counted from 0 in flush order, and what it raises. */
  datatype Fault = Fault(atBatch: nat, exc: Exc)

  /** One step of the run loop: the state after it, the log it wrote, and what it raised. */
  datatype Step = Step(state: State, log: seq<Message>, raised: Option<Exc>)

  /** Reading a key of the `defaultdict`: a missing key reads as the empty list. */
  function Batch(b: Batches, k: GroupKey): seq<StormTuple> {
    if k in b then b[k] else []
  }

  predicate Distinct(order: seq<GroupKey>) {
    forall i, j :: 0 <= i < j < |order| ==> order[i] != order[j]
  }

  /** `order` is an iteration order of a dictionary with these keys. */
  predicate IsEnumeration(order: seq<GroupKey>, keys: set<GroupKey>) {
    && Distinct(order)
    && (forall k :: k in keys ==> k in order)
    && (forall n :: 0 <= n < |order| ==> order[n] in keys)
  }

  /** The tuples of the batches of `keys`, batch after batch, each in arrival order. */
  function Gather(b: Batches, keys: seq<GroupKey>): seq<StormTuple> {
    if keys == [] then [] else Batch(b, keys[0]) + Gather(b, keys[1..])
  }

  lemma {:induction false} GatherAppend(b: Batches, xs: seq<GroupKey>, ys: seq<GroupKey>)
    ensures Gather(b, xs + ys) == Gather(b, xs) + Gather(b, ys)
  {
    if xs == [] {
      assert xs + ys == ys;
    } else {
      assert (xs + ys)[0] == xs[0];
      assert (xs + ys)[1..] == xs[1..] + ys;
      GatherAppend(b, xs[1..], ys);
    }
  }

  /** Two batch maps that agree on `keys` gather the same tuples for them. */
  lemma {:induction false} GatherAgree(b1: Batches, b2: Batches, keys: seq<GroupKey>)
    requires forall k :: k in keys ==> Batch(b1, k) == Batch(b2, k)
    ensures Gather(b1, keys) == Gather(b2, keys)
  {
    if keys != [] {
      assert keys[0] in keys;
      forall k | k in keys[1..] ensures Batch(b1, k) == Batch(b2, k) {
        assert k in keys;
      }
      GatherAgree(b1, b2, keys[1..]);
    }
  }

  /** Keys whose batches are all empty gather nothing. */
  lemma {:induction false} GatherEmpty(b: Batches, keys: seq<GroupKey>)
    requires forall k :: k in keys ==> Batch(b, k) == []
    ensures Gather(b, keys) == []
  {
    if keys != [] {
      assert keys[0] in keys;
      forall k | k in keys[1..] ensures Batch(b, k) == [] {
        assert k in keys;
      }
      GatherEmpty(b, keys[1..]);
    }
  }

  /** Outside a flush no batch is an empty list: `process` is the only writer. */
  predicate WellFormed(st: State) {
    forall k :: k in st.batches ==> st.batches[k] != []
  }

  /** `process`: appends the tuple to the batch of its group key. */
  function Process(st: State, tup: StormTuple, groupKey: StormTuple -> GroupKey): (st': State)
    ensures st'.batches.Keys == st.batches.Keys + {groupKey(tup)}
    ensures Batch(st'.batches, groupKey(tup)) == Batch(st.batches, groupKey(tup)) + [tup]
    ensures forall k :: k != groupKey(tup) ==> Batch(st'.batches, k) == Batch(st.batches, k)
    ensures st'.tickCounter == st.tickCounter && st'.currentTups == st.currentTups
    ensures WellFormed(st) ==> WellFormed(st')
  {
    var k := groupKey(tup);
    st.(batches := st.batches[k := Batch(st.batches, k) + [tup]])
  }

  /** The emit `process_batch` makes: the base emit, with `need_task_ids` always False. */
  function Emit(cfg: Config, st: State, payload: Payload, stream: Option<string>,
                anchors: Option<seq<TupleRef>>, directTask: Option<int>, needTaskIds: bool): (req: EmitRequest)
    ensures !req.needTaskIds
    ensures req.(needTaskIds := needTaskIds)
            == Bolt.Emit(cfg.bolt, st.currentTups, payload, stream, anchors, directTask, needTaskIds)
  {
    Bolt.Emit(cfg.bolt, st.currentTups, payload, stream, anchors, directTask, false)
  }

  /** `emit_many`: the base `emit_many`, whose emits go through the `emit` above. */
  method EmitMany(cfg: Config, st: State, tuples: Bolt.Sequence, stream: Option<string>,
                  anchors: Option<seq<TupleRef>>, directTask: Option<int>, needTaskIds: bool)
    returns (r: Result<seq<EmitRequest>, Bolt.TypeError>, log: seq<Message>)
    ensures r.Failure? <==> tuples.NotSequence?
    ensures r.Failure? ==> r.error == Bolt.TypeError(tuples.typeName) && log == []
    ensures r.Success? ==>
              && |r.value| == |tuples.items|
              && (forall i :: 0 <= i < |tuples.items| ==>
                    r.value[i] == Emit(cfg, st, tuples.items[i], stream, anchors, directTask, needTaskIds)
                    && !r.value[i].needTaskIds)
    ensures r.Success? ==> |log| == |r.value| && forall i :: 0 <= i < |log| ==> log[i] == Emitted(r.value[i])
  {
    r, log := Bolt.EmitMany(cfg.bolt, st.currentTups, tuples, stream, anchors, directTask, false);
  }

  /** Where a flush that starts at position `i` stops: the raising batch, or the end. */
  function StopAt(fault: Option<Fault>, i: nat, n: nat): nat {
    if fault.Some? && i <= fault.value.atBatch < n then fault.value.atBatch else n
  }

  /** What a flush leaves behind. */
  datatype Flush = Flush(batches: Batches, currentTups: seq<StormTuple>, log: seq<Message>, raised: Option<Exc>)

  /**
   The loop of `process_tick` from position `i` of `order` on: each batch
   becomes the current tuples, is passed to `process_batch`, is acked tuple by
   tuple if `auto_ack`, and is then replaced by the empty list.
   */
  function FlushFrom(autoAck: bool, b: Batches, order: seq<GroupKey>, i: nat, fault: Option<Fault>,
                     current: seq<StormTuple>): (r: Flush)
    requires i <= |order|
    ensures r.raised.Some? <==> fault.Some? && i <= fault.value.atBatch < |order|
    ensures r.raised.Some? ==> r.raised.value == fault.value.exc
    ensures b.Keys <= r.batches.Keys
    decreases |order| - i
  {
    if i == |order| then Flush(b, current, [], None)
    else
      var key := order[i];
      var batch := Batch(b, key);
      var call := BatchProcessed(key, batch);
      if fault.Some? && fault.value.atBatch == i then Flush(b, batch, [call], Some(fault.value.exc))
      else
        var acks := if autoAck then Bolt.SendEach(AckCmd, batch) else [];
        var rest := FlushFrom(autoAck, b[key := []], order, i + 1, fault, batch);
        Flush(rest.batches, rest.currentTups, [call] + acks + rest.log, rest.raised)
  }

  /** A flush from position `i` raises exactly when it reaches the raising batch, which becomes current. */
  lemma {:induction false} FlushRaises(autoAck: bool, b: Batches, order: seq<GroupKey>, i: nat,
                                       fault: Option<Fault>, current: seq<StormTuple>)
    requires i <= |order|
    requires Distinct(order)
    ensures var r := FlushFrom(autoAck, b, order, i, fault, current);
            var j := StopAt(fault, i, |order|);
            && (r.raised.Some? <==> j < |order|)
            && (j < |order| ==> r.raised == Some(fault.value.exc) && r.currentTups == Batch(b, order[j]))
    decreases |order| - i
  {
    if i < |order| && !(fault.Some? && fault.value.atBatch == i) {
      var key := order[i];
      var rest := FlushFrom(autoAck, b[key := []], order, i + 1, fault, Batch(b, key));
      assert FlushFrom(autoAck, b, order, i, fault, current).currentTups == rest.currentTups;
      FlushRaises(autoAck, b[key := []], order, i + 1, fault, Batch(b, key));
      var j := StopAt(fault, i, |order|);
      assert StopAt(fault, i + 1, |order|) == j;
      if j < |order| {
        assert order[j] != key;
      }
    }
  }

  /** In distinct keys, a slice is its first key followed by the rest, which lacks that key. */
  lemma SliceHead(order: seq<GroupKey>, i: nat, j: nat)
    requires i < j <= |order|
    requires Distinct(order)
    ensures forall k :: k in order[i..j] <==> k == order[i] || k in order[i + 1..j]
    ensures order[i] !in order[i + 1..j]
  {
    assert order[i..j] == [order[i]] + order[i + 1..j];
    forall n | i + 1 <= n < j ensures order[n] != order[i] { }
  }

  /** A flush from position `i` empties exactly the batches it got through, and adds no key. */
  lemma {:induction false} FlushEmpties(autoAck: bool, b: Batches, order: seq<GroupKey>, i: nat,
                                        fault: Option<Fault>, current: seq<StormTuple>)
    requires i <= |order|
    requires Distinct(order)
    requires forall n :: i <= n < |order| ==> order[n] in b
    ensures var r := FlushFrom(autoAck, b, order, i, fault, current);
            var j := StopAt(fault, i, |order|);
            && r.batches.Keys == b.Keys
            && (forall k :: k in order[i..j] ==> Batch(r.batches, k) == [])
            && (forall k :: k !in order[i..j] ==> Batch(r.batches, k) == Batch(b, k))
    decreases |order| - i
  {
    var j := StopAt(fault, i, |order|);
    if i == |order| || (fault.Some? && fault.value.atBatch == i) {
      assert order[i..j] == [];
    } else {
      var key := order[i];
      var b' := b[key := []];
      var r := FlushFrom(autoAck, b, order, i, fault, current);
      var rest := FlushFrom(autoAck, b', order, i + 1, fault, Batch(b, key));
      assert r.batches == rest.batches;
      assert StopAt(fault, i + 1, |order|) == j;
      FlushEmpties(autoAck, b', order, i + 1, fault, Batch(b, key));
      SliceHead(order, i, j);
    }
  }

  /** The head of a flush step: the call of `process_batch`, then the acks of its batch. */
  lemma FlushHeadAcks(autoAck: bool, call: Message, batch: seq<StormTuple>, rest: seq<Message>)
    requires call.BatchProcessed?
    ensures var log := [call] + (if autoAck then Bolt.SendEach(AckCmd, batch) else []) + rest;
            && Acked(log) == (if autoAck then Ids(batch) else []) + Acked(rest)
            && Failed(log) == Failed(rest)
  {
    var acks := if autoAck then Bolt.SendEach(AckCmd, batch) else [];
    AckedAfterCall(call, acks, rest);
  }

  /** A log that starts with a call, not a command, acks and fails what the stretches after it do. */
  lemma AckedAfterCall(call: Message, acks: seq<Message>, rest: seq<Message>)
    requires !call.TupleCommand?
    ensures Acked([call] + acks + rest) == Acked(acks) + Acked(rest)
    ensures Failed([call] + acks + rest) == Failed(acks) + Failed(rest)
  {
    CommandIdsOne(call);
    CommandIdsThree([call], acks, rest);
  }

  /** Gathering from position `i` is the first batch, then the rest with that batch emptied. */
  lemma GatherSkipFirst(b: Batches, order: seq<GroupKey>, i: nat, j: nat)
    requires i < j <= |order|
    requires Distinct(order)
    ensures Gather(b, order[i..j]) == Batch(b, order[i]) + Gather(b[order[i] := []], order[i + 1..j])
  {
    var key := order[i];
    assert order[i..j][0] == key;
    assert order[i..j][1..] == order[i + 1..j];
    forall k | k in order[i + 1..j] ensures Batch(b[key := []], k) == Batch(b, k) {
      var n :| i + 1 <= n < j && order[n] == k;
    }
    GatherAgree(b[key := []], b, order[i + 1..j]);
  }

  /** A flush from position `i` acks, if `auto_ack`, the tuples of the batches it got through, in order, and fails none. */
  lemma {:induction false} FlushAcks(autoAck: bool, b: Batches, order: seq<GroupKey>, i: nat,
                                     fault: Option<Fault>, current: seq<StormTuple>)
    requires i <= |order|
    requires Distinct(order)
    ensures var r := FlushFrom(autoAck, b, order, i, fault, current);
            var j := StopAt(fault, i, |order|);
            && Acked(r.log) == (if autoAck then Ids(Gather(b, order[i..j])) else [])
            && Failed(r.log) == []
    decreases |order| - i
  {
    var j := StopAt(fault, i, |order|);
    if i == |order| {
      assert order[i..j] == [];
    } else if fault.Some? && fault.value.atBatch == i {
      assert order[i..j] == [];
      CommandIdsOne(BatchProcessed(order[i], Batch(b, order[i])));
    } else {
      var key := order[i];
      var batch := Batch(b, key);
      var call := BatchProcessed(key, batch);
      var acks := if autoAck then Bolt.SendEach(AckCmd, batch) else [];
      var b' := b[key := []];
      var r := FlushFrom(autoAck, b, order, i, fault, current);
      var rest := FlushFrom(autoAck, b', order, i + 1, fault, batch);
      assert r.log == [call] + acks + rest.log;
      assert StopAt(fault, i + 1, |order|) == j;
      FlushAcks(autoAck, b', order, i + 1, fault, batch);
      FlushHeadAcks(autoAck, call, batch, rest.log);
      GatherSkipFirst(b, order, i, j);
      if autoAck {
        IdsAppend(batch, Gather(b', order[i + 1..j]));
      }
    }
  }

  /**
   Reference log of a flush that gets through the batches of `keys`: for each
   batch in turn, the call of `process_batch` with its key and tuples, then,
   if `auto_ack`, one ack per tuple of that batch.
   */
  function Segments(autoAck: bool, b: Batches, keys: seq<GroupKey>): seq<Message> {
    if keys == [] then []
    else [BatchProcessed(keys[0], Batch(b, keys[0]))]
         + (if autoAck then Bolt.SendEach(AckCmd, Batch(b, keys[0])) else [])
         + Segments(autoAck, b, keys[1..])
  }

  /** Two batch maps that agree on `keys` give the same reference log for them. */
  lemma {:induction false} SegmentsAgree(autoAck: bool, b1: Batches, b2: Batches, keys: seq<GroupKey>)
    requires forall k :: k in keys ==> Batch(b1, k) == Batch(b2, k)
    ensures Segments(autoAck, b1, keys) == Segments(autoAck, b2, keys)
  {
    if keys != [] {
      assert keys[0] in keys;
      forall k | k in keys[1..] ensures Batch(b1, k) == Batch(b2, k) {
        assert k in keys;
      }
      SegmentsAgree(autoAck, b1, b2, keys[1..]);
    }
  }

  /** The reference log of a slice is that of its first batch, then that of the rest. */
  lemma SegmentsHead(autoAck: bool, b: Batches, order: seq<GroupKey>, i: nat, j: nat)
    requires i < j <= |order|
    ensures Segments(autoAck, b, order[i..j])
            == [BatchProcessed(order[i], Batch(b, order[i]))]
               + (if autoAck then Bolt.SendEach(AckCmd, Batch(b, order[i])) else [])
               + Segments(autoAck, b, order[i + 1..j])
  {
    assert order[i..j][0] == order[i];
    assert order[i..j][1..] == order[i + 1..j];
  }

  /** The batch of the raising call, if the flush stopped before the end, as a one-entry log. */
  function RaisingCall(b: Batches, order: seq<GroupKey>, j: nat): seq<Message> {
    if j < |order| then [BatchProcessed(order[j], Batch(b, order[j]))] else []
  }

  /** One step of `FlushLog`: the log of the first batch, put in front of the log of the rest. */
  lemma FlushLogStep(autoAck: bool, b: Batches, order: seq<GroupKey>, i: nat, j: nat, restLog: seq<Message>)
    requires i < j <= |order|
    requires Distinct(order)
    requires restLog == Segments(autoAck, b[order[i] := []], order[i + 1..j]) + RaisingCall(b[order[i] := []], order, j)
    ensures [BatchProcessed(order[i], Batch(b, order[i]))]
            + (if autoAck then Bolt.SendEach(AckCmd, Batch(b, order[i])) else [])
            + restLog
            == Segments(autoAck, b, order[i..j]) + RaisingCall(b, order, j)
  {
    var key := order[i];
    var b' := b[key := []];
    SliceHead(order, i, j);
    SegmentsAgree(autoAck, b', b, order[i + 1..j]);
    SegmentsHead(autoAck, b, order, i, j);
    if j < |order| {
      assert order[j] != key;
    }
    assert RaisingCall(b', order, j) == RaisingCall(b, order, j);
  }

  /**
   The whole log of a flush from position `i`: `process_batch` is called for
   each batch in `order` up to and including the one that raises, with that
   batch's key and tuples; each batch it got through is acked (if
   `auto_ack`) right after its call and before the next call; the raising
   batch is not acked.
   */
  lemma {:induction false} FlushLog(autoAck: bool, b: Batches, order: seq<GroupKey>, i: nat,
                                    fault: Option<Fault>, current: seq<StormTuple>)
    requires i <= |order|
    requires Distinct(order)
    ensures var r := FlushFrom(autoAck, b, order, i, fault, current);
            var j := StopAt(fault, i, |order|);
            r.log == Segments(autoAck, b, order[i..j]) + RaisingCall(b, order, j)
    decreases |order| - i
  {
    var j := StopAt(fault, i, |order|);
    if i == |order| || (fault.Some? && fault.value.atBatch == i) {
      assert order[i..j] == [];
    } else {
      var key := order[i];
      var rest := FlushFrom(autoAck, b[key := []], order, i + 1, fault, Batch(b, key));
      assert StopAt(fault, i + 1, |order|) == j;
      FlushLog(autoAck, b[key := []], order, i + 1, fault, Batch(b, key));
      FlushLogStep(autoAck, b, order, i, j, rest.log);
    }
  }

  /** The flush condition of `process_tick`, on the counter after incrementing it. */
  predicate Flushes(cfg: Config, st: State) {
    st.tickCounter + 1 > cfg.ticksBetweenBatches && st.batches != map[]
  }

  /** `process_tick`: counts the tick and flushes every batch once enough ticks have arrived. */
  function ProcessTick(cfg: Config, st: State, order: seq<GroupKey>, fault: Option<Fault>): (s: Step)
    requires IsEnumeration(order, st.batches.Keys)
    ensures !Flushes(cfg, st) ==> s == Step(st.(tickCounter := st.tickCounter + 1), [], None)
    ensures Flushes(cfg, st) ==> (s.raised.Some? <==> fault.Some? && fault.value.atBatch < |order|)
    ensures Flushes(cfg, st) && s.raised.None? ==> s.state.batches == map[] && s.state.tickCounter == 0
    ensures s.raised.Some? ==>
              && s.state.tickCounter == st.tickCounter + 1
              && s.state.batches.Keys == st.batches.Keys
              && s.state.currentTups == Batch(st.batches, order[fault.value.atBatch])
    ensures Failed(s.log) == []
  {
    var counter := st.tickCounter + 1;
    if counter > cfg.ticksBetweenBatches && st.batches != map[] then
      FlushRaises(cfg.bolt.autoAck, st.batches, order, 0, fault, st.currentTups);
      FlushEmpties(cfg.bolt.autoAck, st.batches, order, 0, fault, st.currentTups);
      FlushAcks(cfg.bolt.autoAck, st.batches, order, 0, fault, st.currentTups);
      var f := FlushFrom(cfg.bolt.autoAck, st.batches, order, 0, fault, st.currentTups);
      if f.raised.Some? then Step(State(f.currentTups, f.batches, counter), f.log, f.raised)
      else Step(State(f.currentTups, map[], 0), f.log, None)
    else Step(st.(tickCounter := counter), [], None)
  }

  /** `_run`: one pass of the run loop; it never acks anything itself. */
  function Run(cfg: Config, st: State, input: Read, groupKey: StormTuple -> GroupKey,
               order: seq<GroupKey>, fault: Option<Fault>): (s: Step)
    requires IsEnumeration(order, st.batches.Keys)
    ensures s.raised.None? ==> s.state.currentTups == []
    ensures s.raised.Some? ==> s.state.batches.Keys == st.batches.Keys
    ensures Failed(s.log) == []
    ensures input.ReadFailed? ==> s == Step(st, [], Some(input.exc))
    ensures input.Received? && IsHeartbeat(input.tup) ==> s == Step(st.(currentTups := []), [Sync], None)
    ensures input.Received? && Classify(input.tup) == Ordinary ==>
              s == Step(Process(st, input.tup, groupKey).(currentTups := []), [], None)
    ensures input.Received? && IsTick(input.tup) ==>
              var t := ProcessTick(cfg, st.(currentTups := [input.tup]), order, fault);
              && s.log == t.log && s.raised == t.raised
              && (t.raised.Some? ==> s.state == t.state)
              && (t.raised.None? ==> s.state == t.state.(currentTups := []))
  {
    match input
    case ReadFailed(e) => Step(st, [], Some(e))
    case Received(tup) =>
      var st1 := st.(currentTups := [tup]);
      match Classify(tup)
      case Heartbeat => Step(st1.(currentTups := []), [Sync], None)
      case Tick =>
        var s := ProcessTick(cfg, st1, order, fault);
        if s.raised.Some? then s else s.(state := s.state.(currentTups := []))
      case Ordinary =>
        Step(Process(st1, tup, groupKey).(currentTups := []), [], None)
  }

  /** `_handle_run_exception`: reports the error and, if `auto_fail`, fails every batched tuple. */
  function HandleRunException(cfg: Config, st: State, exc: Exc, order: seq<GroupKey>): (log: seq<Message>)
    requires IsEnumeration(order, st.batches.Keys)
    ensures |log| >= 2 && log[0] == RunExceptionLogged(exc) && log[1] == ErrorReported(exc, TupleList(st.currentTups))
    ensures Acked(log) == []
    ensures Failed(log) == (if cfg.bolt.autoFail then Ids(Gather(st.batches, order)) else [])
    ensures |log| == 2 + (if cfg.bolt.autoFail then |Gather(st.batches, order)| else 0)
  {
    var report := [RunExceptionLogged(exc), ErrorReported(exc, TupleList(st.currentTups))];
    var fails := if cfg.bolt.autoFail then Bolt.SendEach(FailCmd, Gather(st.batches, order)) else [];
    assert report == [RunExceptionLogged(exc)] + [ErrorReported(exc, TupleList(st.currentTups))];
    CommandIdsOne(RunExceptionLogged(exc));
    CommandIdsOne(ErrorReported(exc, TupleList(st.currentTups)));
    CommandIdsAppend([RunExceptionLogged(exc)], [ErrorReported(exc, TupleList(st.currentTups))]);
    CommandIdsAppend(report, fails);
    report + fails
  }

  /** With `auto_ack`, a flush that completes acks every batched tuple once, batch by batch in arrival order. */
  lemma CompletedFlushAcksEveryBatchedTuple(cfg: Config, st: State, order: seq<GroupKey>, fault: Option<Fault>)
    requires IsEnumeration(order, st.batches.Keys)
    ensures var s := ProcessTick(cfg, st, order, fault);
            Flushes(cfg, st) && s.raised.None? ==>
              Acked(s.log) == (if cfg.bolt.autoAck then Ids(Gather(st.batches, order)) else [])
  {
    if Flushes(cfg, st) {
      FlushRaises(cfg.bolt.autoAck, st.batches, order, 0, fault, st.currentTups);
      FlushAcks(cfg.bolt.autoAck, st.batches, order, 0, fault, st.currentTups);
      assert order[0..|order|] == order;
    }
  }

  /** Gathering a prefix of the keys and then the rest gathers them all. */
  lemma GatherSplit(b: Batches, order: seq<GroupKey>, j: nat)
    requires j <= |order|
    ensures Gather(b, order[..j]) + Gather(b, order[j..]) == Gather(b, order)
  {
    assert order == order[..j] + order[j..];
    GatherAppend(b, order[..j], order[j..]);
  }

  /**
   A tick that flushes writes exactly the reference log for the batches
   before the raising one (all of them if none raises), followed by the call
   of the raising batch; a tick that does not flush writes nothing.
   */
  lemma TickCallsEachBatch(cfg: Config, st: State, order: seq<GroupKey>, fault: Option<Fault>)
    requires IsEnumeration(order, st.batches.Keys)
    ensures var s := ProcessTick(cfg, st, order, fault);
            var j := StopAt(fault, 0, |order|);
            && (Flushes(cfg, st) ==>
                  s.log == Segments(cfg.bolt.autoAck, st.batches, order[..j]) + RaisingCall(st.batches, order, j))
            && (!Flushes(cfg, st) ==> s.log == [])
  {
    if Flushes(cfg, st) {
      FlushLog(cfg.bolt.autoAck, st.batches, order, 0, fault, st.currentTups);
      assert order[0..StopAt(fault, 0, |order|)] == order[..StopAt(fault, 0, |order|)];
    }
  }

  /** A map that emptied the batches of `order[..j]` and kept the others gathers just the batches from `j` on. */
  lemma GatherAfterStop(b: Batches, left: Batches, order: seq<GroupKey>, j: nat)
    requires j <= |order|
    requires Distinct(order)
    requires forall k :: k in order[..j] ==> Batch(left, k) == []
    requires forall k :: k !in order[..j] ==> Batch(left, k) == Batch(b, k)
    ensures Gather(left, order) == Gather(b, order[j..])
  {
    assert order == order[..j] + order[j..];
    GatherAppend(left, order[..j], order[j..]);
    GatherEmpty(left, order[..j]);
    forall k | k in order[j..] ensures Batch(left, k) == Batch(b, k) {
      var n :| j <= n < |order| && order[n] == k;
      assert k !in order[..j] by {
        forall m | 0 <= m < j ensures order[m] != k { }
      }
    }
    GatherAgree(left, b, order[j..]);
  }

  /** A flush that raises at `j` acks the batches before `j` and leaves exactly those from `j` on batched. */
  lemma FlushStopped(autoAck: bool, b: Batches, order: seq<GroupKey>, fault: Option<Fault>, current: seq<StormTuple>)
    requires Distinct(order)
    requires forall n :: 0 <= n < |order| ==> order[n] in b
    ensures var r := FlushFrom(autoAck, b, order, 0, fault, current);
            r.raised.Some? ==>
              && fault.Some? && fault.value.atBatch < |order|
              && Acked(r.log) == (if autoAck then Ids(Gather(b, order[..fault.value.atBatch])) else [])
              && Gather(r.batches, order) == Gather(b, order[fault.value.atBatch..])
  {
    var r := FlushFrom(autoAck, b, order, 0, fault, current);
    FlushRaises(autoAck, b, order, 0, fault, current);
    if r.raised.Some? {
      var j := fault.value.atBatch;
      FlushAcks(autoAck, b, order, 0, fault, current);
      FlushEmpties(autoAck, b, order, 0, fault, current);
      assert order[0..j] == order[..j];
      GatherAfterStop(b, r.batches, order, j);
    }
  }

  /**
   When `process_batch` raises for the batch at position `j` of the flush,
   the batches before `j` have been acked (if `auto_ack`) and the exception
   handler fails (if `auto_fail`) exactly the batches from `j` on: the ones
   acked were emptied and are not failed again.
   */
  lemma FailureAfterPartialFlush(cfg: Config, st: State, order: seq<GroupKey>, fault: Option<Fault>)
    requires IsEnumeration(order, st.batches.Keys)
    ensures var s := ProcessTick(cfg, st, order, fault);
            s.raised.Some? ==>
              var j := fault.value.atBatch;
              && Acked(s.log) == (if cfg.bolt.autoAck then Ids(Gather(st.batches, order[..j])) else [])
              && Failed(HandleRunException(cfg, s.state, s.raised.value, order))
                 == (if cfg.bolt.autoFail then Ids(Gather(st.batches, order[j..])) else [])
  {
    FlushStopped(cfg.bolt.autoAck, st.batches, order, fault, st.currentTups);
  }

  /**
   The split a raising run step makes of the tuples batched before it: those
   of `pre` were acked (if `auto_ack`) and those of `post` are failed by the
   exception handler (if `auto_fail`).
   */
  lemma RunThenFailureSplit(cfg: Config, st: State, input: Read, groupKey: StormTuple -> GroupKey,
                            order: seq<GroupKey>, fault: Option<Fault>)
    returns (pre: seq<StormTuple>, post: seq<StormTuple>)
    requires IsEnumeration(order, st.batches.Keys)
    ensures var s := Run(cfg, st, input, groupKey, order, fault);
            s.raised.Some? ==>
              && pre + post == Gather(st.batches, order)
              && Acked(s.log) == (if cfg.bolt.autoAck then Ids(pre) else [])
              && Failed(HandleRunException(cfg, s.state, s.raised.value, order))
                 == (if cfg.bolt.autoFail then Ids(post) else [])
  {
    var s := Run(cfg, st, input, groupKey, order, fault);
    pre, post := [], Gather(st.batches, order);
    if s.raised.Some? && input.Received? {
      pre, post := TickSplit(cfg, st.(currentTups := [input.tup]), order, fault);
    }
  }

  /** `FailureAfterPartialFlush`, with the two halves of the batched tuples named. */
  lemma TickSplit(cfg: Config, st: State, order: seq<GroupKey>, fault: Option<Fault>)
    returns (pre: seq<StormTuple>, post: seq<StormTuple>)
    requires IsEnumeration(order, st.batches.Keys)
    ensures var s := ProcessTick(cfg, st, order, fault);
            s.raised.Some? ==>
              && pre + post == Gather(st.batches, order)
              && Acked(s.log) == (if cfg.bolt.autoAck then Ids(pre) else [])
              && Failed(HandleRunException(cfg, s.state, s.raised.value, order))
                 == (if cfg.bolt.autoFail then Ids(post) else [])
  {
    var s := ProcessTick(cfg, st, order, fault);
    pre, post := [], [];
    if s.raised.Some? {
      FailureAfterPartialFlush(cfg, st, order, fault);
      var j := fault.value.atBatch;
      GatherSplit(st.batches, order, j);
      pre, post := Gather(st.batches, order[..j]), Gather(st.batches, order[j..]);
    }
  }

  /**
   With both `auto_ack` and `auto_fail`, a run step that raises, followed by
   the exception handler, answers every tuple that was batched before the
   step exactly once: the acks and then the fails list them all, in flush
   order.
   */
  lemma RunThenFailureAnswersEachBatchedTupleOnce(cfg: Config, st: State, input: Read,
                                                   groupKey: StormTuple -> GroupKey,
                                                   order: seq<GroupKey>, fault: Option<Fault>)
    requires IsEnumeration(order, st.batches.Keys)
    requires cfg.bolt.autoAck && cfg.bolt.autoFail
    ensures var s := Run(cfg, st, input, groupKey, order, fault);
            s.raised.Some? ==>
              Acked(s.log) + Failed(HandleRunException(cfg, s.state, s.raised.value, order))
              == Ids(Gather(st.batches, order))
  {
    var pre, post := RunThenFailureSplit(cfg, st, input, groupKey, order, fault);
    IdsAppend(pre, post);
  }

  /** No tuple id is sent twice among the batched tuples. */
  predicate DistinctIds(ts: seq<StormTuple>) {
    forall i, j :: 0 <= i < j < |ts| ==> ts[i].id != ts[j].id
  }

  /** Splitting tuples with distinct ids leaves no id on both sides. */
  lemma IdsOfDistinctHalves(pre: seq<StormTuple>, post: seq<StormTuple>)
    requires DistinctIds(pre + post)
    ensures forall id :: id in Ids(pre) ==> id !in Ids(post)
  {
    forall id | id in Ids(pre) ensures id !in Ids(post) {
      var p :| 0 <= p < |pre| && Ids(pre)[p] == id;
      forall q | 0 <= q < |post| ensures post[q].id != id {
        assert (pre + post)[p] == pre[p];
        assert (pre + post)[|pre| + q] == post[q];
      }
    }
  }

  /**
   When the batched tuples carry distinct ids (as Storm's message ids do), no
   tuple is both acked by a raising run step and failed by the exception
   handler that follows it.
   */
  lemma NeverAckedAndFailed(cfg: Config, st: State, input: Read, groupKey: StormTuple -> GroupKey,
                            order: seq<GroupKey>, fault: Option<Fault>)
    requires IsEnumeration(order, st.batches.Keys)
    requires DistinctIds(Gather(st.batches, order))
    ensures var s := Run(cfg, st, input, groupKey, order, fault);
            s.raised.Some? ==>
              forall id :: id in Acked(s.log) ==> id !in Failed(HandleRunException(cfg, s.state, s.raised.value, order))
  {
    var s := Run(cfg, st, input, groupKey, order, fault);
    var pre, post := RunThenFailureSplit(cfg, st, input, groupKey, order, fault);
    if s.raised.Some? {
      var acked := Acked(s.log);
      var failed := Failed(HandleRunException(cfg, s.state, s.raised.value, order));
      IdsOfDistinctHalves(pre, post);
    }
  }

  /** A run step acks only tuples that were batched before it, as a prefix of the flush order. */
  lemma RunAcksOnlyBatchedTuples(cfg: Config, st: State, input: Read, groupKey: StormTuple -> GroupKey,
                                 order: seq<GroupKey>, fault: Option<Fault>)
    requires IsEnumeration(order, st.batches.Keys)
    ensures Acked(Run(cfg, st, input, groupKey, order, fault).log) <= Ids(Gather(st.batches, order))
  {
    var s := Run(cfg, st, input, groupKey, order, fault);
    var pre, post := RunThenFailureSplit(cfg, st, input, groupKey, order, fault);
    IdsAppend(pre, post);
    if input.Received? && IsTick(input.tup) {
      var st1 := st.(currentTups := [input.tup]);
      assert s.log == ProcessTick(cfg, st1, order, fault).log;
      CompletedFlushAcksEveryBatchedTuple(cfg, st1, order, fault);
    } else if input.Received? && !IsHeartbeat(input.tup) {
      assert s.log == [];
    } else if input.Received? {
      CommandIdsOne(Sync);
    }
  }

  /** A completed run step keeps every batch non-empty. */
  lemma RunPreservesWellFormed(cfg: Config, st: State, input: Read, groupKey: StormTuple -> GroupKey,
                               order: seq<GroupKey>, fault: Option<Fault>)
    requires IsEnumeration(order, st.batches.Keys)
    requires WellFormed(st)
    ensures var s := Run(cfg, st, input, groupKey, order, fault);
            s.raised.None? ==> WellFormed(s.state)
  {
  }

  /** Between steps, "at least one batch exists" (the flush test) means "some tuple is waiting". */
  lemma BatchesExistIffTuplesWaiting(st: State, order: seq<GroupKey>)
    requires IsEnumeration(order, st.batches.Keys)
    requires WellFormed(st)
    ensures st.batches != map[] <==> Gather(st.batches, order) != []
  {
    if order != [] {
      assert order[0] in st.batches;
      assert Gather(st.batches, order) == Batch(st.batches, order[0]) + Gather(st.batches, order[1..]);
    } else {
      assert st.batches.Keys == {};
    }
  }

  /**
   The state `__init__` builds holds no batch and does not flush on its first
   tick. With the default `ticks_between_batches` of 1, from a counter of 0
   (as `__init__` and every completed flush leave it) with some batch
   waiting, the first tick only counts and the next one flushes.
   */
  lemma DefaultsFlushOnSecondTick(st: State, order: seq<GroupKey>, fault: Option<Fault>)
    requires IsEnumeration(order, st.batches.Keys)
    requires st.tickCounter == 0 && st.batches != map[]
    ensures Initial.batches == map[] && WellFormed(Initial) && !Flushes(Defaults, Initial)
    ensures var s1 := ProcessTick(Defaults, st, order, fault);
            && s1 == Step(st.(tickCounter := 1), [], None)
            && Flushes(Defaults, s1.state)
  {
  }

  /**
   The current tuples while `process_batch` handles the batch of `order[k]`
   are what the flush leaves when that call is the one that raises (the
   calls before it are the same either way, by `FlushLog`): the batch of
   `order[k]`. So an emit without explicit anchors is anchored to exactly
   the ids of that batch.
   */
  lemma EmitDuringBatchAnchorsToBatch(cfg: Config, st: State, order: seq<GroupKey>, k: nat, exc: Exc,
                                      payload: Payload, stream: Option<string>, directTask: Option<int>,
                                      needTaskIds: bool)
    requires IsEnumeration(order, st.batches.Keys)
    requires k < |order|
    ensures var f := FlushFrom(cfg.bolt.autoAck, st.batches, order, 0, Some(Fault(k, exc)), st.currentTups);
            && f.currentTups == st.batches[order[k]]
            && Emit(cfg, st.(currentTups := f.currentTups), payload, stream, None, directTask, needTaskIds).anchors
                 == (if cfg.bolt.autoAnchor then Ids(st.batches[order[k]]) else [])
  {
    FlushRaises(cfg.bolt.autoAck, st.batches, order, 0, Some(Fault(k, exc)), st.currentTups);
    assert order[k] in order;
  }
}

=== FILE: bolt.dfy ===
/**
 The base Bolt: acknowledging and failing tuples, emitting with default
 anchors, and the body of the run loop that sorts each incoming tuple into a
 heartbeat, a tick or an ordinary tuple. The user's `process` and
 `process_tick` are represented by a logged call that either returns or
 raises the exception given as `fault`.
 */
module Bolt {
  import opened Wrappers
  import opened Component

  /** The class attributes `auto_anchor`, `auto_ack` and `auto_fail`. */
  datatype Config = Config(autoAnchor: bool, autoAck: bool, autoFail: bool)

  /** All three switches default to True. */
  const Defaults: Config := Config(true, true, true)

  /** `_current_tups`: the tuples an exception right now would be blamed on. */
  datatype State = State(currentTups: seq<StormTuple>)

  /** The class-level default of `_current_tups` is the empty list. */
  const Initial: State := State([])

  /** One step of the run loop: the state after it, the log it wrote, and what it raised. */
  datatype Step = Step(state: State, log: seq<Message>, raised: Option<Exc>)

  /** What `emit_many` is given: a list, a tuple, or a value of some other type. */
  datatype Sequence = PyList(items: seq<Payload>) | PyTuple(items: seq<Payload>) | NotSequence(typeName: string)

  /** The `TypeError` raised for a non-sequence argument, naming the type received. */
  datatype TypeError = TypeError(received: string)

  /** The message `ack` or `fail` sends for a tuple or a bare id. */
  function Send(c: Command, ref: TupleRef): Message {
    TupleCommand(c, RefId(ref))
  }

  function Ack(ref: TupleRef): (m: Message)
    ensures Acked([m]) == [RefId(ref)]
    ensures Failed([m]) == []
    ensures ref.Whole? ==> Acked([m]) == [ref.tup.id]
  {
    CommandIdsOne(Send(AckCmd, ref));
    Send(AckCmd, ref)
  }

  function Fail(ref: TupleRef): (m: Message)
    ensures Failed([m]) == [RefId(ref)]
    ensures Acked([m]) == []
    ensures ref.Whole? ==> Failed([m]) == [ref.tup.id]
  {
    CommandIdsOne(Send(FailCmd, ref));
    Send(FailCmd, ref)
  }

  /** `for tup in tups: self.ack(tup)` (or `self.fail(tup)`), as one log. */
  function SendEach(c: Command, ts: seq<StormTuple>): (log: seq<Message>)
    ensures |log| == |ts|
    ensures CommandIds(log, c) == Ids(ts)
    ensures forall d :: d != c ==> CommandIds(log, d) == []
  {
    if ts == [] then []
    else
      var head, rest := [Send(c, Whole(ts[0]))], SendEach(c, ts[1..]);
      CommandIdsOne(Send(c, Whole(ts[0])));
      CommandIdsAppend(head, rest);
      head + rest
  }

  /** Every anchor becomes an id: a Tuple is replaced by its id, anything else passes through. */
  function ResolveAnchors(anchors: seq<TupleRef>): (ids: seq<string>)
    ensures |ids| == |anchors|
    ensures forall i :: 0 <= i < |anchors| ==> ids[i] == RefId(anchors[i])
  {
    if anchors == [] then [] else [RefId(anchors[0])] + ResolveAnchors(anchors[1..])
  }

  /** The request `emit` hands to the base class, given the current tuples. */
  function Emit(cfg: Config, current: seq<StormTuple>, payload: Payload, stream: Option<string>,
                anchors: Option<seq<TupleRef>>, directTask: Option<int>, needTaskIds: bool): (req: EmitRequest)
    ensures req.payload == payload && req.stream == stream
    ensures req.directTask == directTask && req.needTaskIds == needTaskIds
    ensures anchors.Some? ==>
              |req.anchors| == |anchors.value|
              && forall i :: 0 <= i < |anchors.value| ==> req.anchors[i] == RefId(anchors.value[i])
    ensures anchors.None? && cfg.autoAnchor ==> req.anchors == Ids(current)
    ensures anchors.None? && !cfg.autoAnchor ==> req.anchors == []
  {
    var refs := match anchors
      case Some(a) => a
      case None => if cfg.autoAnchor then seq(|current|, i requires 0 <= i < |current| => Whole(current[i])) else [];
    EmitRequest(payload, stream, ResolveAnchors(refs), directTask, needTaskIds)
  }

  /** `emit_many`: rejects a non-sequence, otherwise emits each payload in turn. */
  method EmitMany(cfg: Config, current: seq<StormTuple>, tuples: Sequence, stream: Option<string>,
                  anchors: Option<seq<TupleRef>>, directTask: Option<int>, needTaskIds: bool)
    returns (r: Result<seq<EmitRequest>, TypeError>, log: seq<Message>)
    ensures r.Failure? <==> tuples.NotSequence?
    ensures r.Failure? ==> r.error == TypeError(tuples.typeName) && log == []
    ensures r.Success? ==>
              && |r.value| == |tuples.items|
              && (forall i :: 0 <= i < |tuples.items| ==>
                    r.value[i] == Emit(cfg, current, tuples.items[i], stream, anchors, directTask, needTaskIds))
    ensures r.Success? ==> |log| == |r.value| && forall i :: 0 <= i < |log| ==> log[i] == Emitted(r.value[i])
  {
    if tuples.NotSequence? {
      return Failure(TypeError(tuples.typeName)), [];
    }
    var all: seq<EmitRequest> := [];
    log := [];
    var i := 0;
    while i < |tuples.items|
      invariant 0 <= i <= |tuples.items|
      invariant |all| == i && |log| == i
      invariant forall j :: 0 <= j < i ==>
                  all[j] == Emit(cfg, current, tuples.items[j], stream, anchors, directTask, needTaskIds)
      invariant forall j :: 0 <= j < i ==> log[j] == Emitted(all[j])
    {
      var req := Emit(cfg, current, tuples.items[i], stream, anchors, directTask, needTaskIds);
      all := all + [req];
      log := log + [Emitted(req)];
      i := i + 1;
    }
    r := Success(all);
  }

  /** `_current_tups = [self.read_tuple()]`: the state while a received tuple is handled. */
  function Receive(tup: StormTuple): State {
    State([tup])
  }

  /** A tick or ordinary tuple: the user's hook is called, then the tuple is acked if it returned. */
  function Handle(cfg: Config, tup: StormTuple, call: Message, fault: Option<Exc>): (s: Step)
    requires !call.TupleCommand?
    ensures |s.log| >= 1 && s.log[0] == call && s.raised == fault && Failed(s.log) == []
    ensures Acked(s.log) == (if fault.None? && cfg.autoAck then [tup.id] else [])
    ensures |s.log| == (if fault.None? && cfg.autoAck then 2 else 1)
    ensures fault.None? ==> s.state == Initial
    ensures fault.Some? ==> s.state == Receive(tup)
  {
    var acks := if fault.None? && cfg.autoAck then [Ack(Whole(tup))] else [];
    CommandIdsOne(call);
    CommandIdsAppend([call], acks);
    if fault.Some? then assert [call] + acks == [call]; Step(Receive(tup), [call], fault)
    else Step(Initial, [call] + acks, None)
  }

  /** `_run`: one pass of the run loop. */
  function Run(cfg: Config, st: State, input: Read, fault: Option<Exc>): (s: Step)
    ensures s.raised.None? ==> s.state.currentTups == []
    ensures Failed(s.log) == []
    ensures input.ReadFailed? ==> s == Step(st, [], Some(input.exc))
    ensures input.Received? && IsHeartbeat(input.tup) ==> s == Step(Initial, [Sync], None)
    ensures input.Received? && !IsHeartbeat(input.tup) ==>
              && s.raised == fault
              && |s.log| >= 1 && s.log[0] == (if IsTick(input.tup) then TickProcessed(input.tup) else Processed(input.tup))
              && Acked(s.log) == (if fault.None? && cfg.autoAck then [input.tup.id] else [])
              && |s.log| == (if fault.None? && cfg.autoAck then 2 else 1)
              && (fault.Some? ==> s.state == Receive(input.tup))
  {
    match input
    case ReadFailed(e) => Step(st, [], Some(e))
    case Received(tup) =>
      match Classify(tup)
      case Heartbeat => Step(Initial, [Sync], None)
      case Tick => Handle(cfg, tup, TickProcessed(tup), fault)
      case Ordinary => Handle(cfg, tup, Processed(tup), fault)
  }

  /** `_handle_run_exception`: blames and fails the current tuple only if there is exactly one. */
  function HandleRunException(cfg: Config, st: State, exc: Exc): (log: seq<Message>)
    ensures |log| >= 1 && log[0] == RunExceptionLogged(exc)
    ensures Acked(log) == []
    ensures Failed(log) == (if cfg.autoFail && |st.currentTups| == 1 then [st.currentTups[0].id] else [])
    ensures |st.currentTups| == 1 ==> |log| >= 2 && log[1] == ErrorReported(exc, OneTuple(st.currentTups[0]))
    ensures |st.currentTups| == 1 ==> |log| == 2 + (if cfg.autoFail then 1 else 0)
    ensures |st.currentTups| != 1 ==> log == [RunExceptionLogged(exc)]
  {
    CommandIdsOne(RunExceptionLogged(exc));
    if |st.currentTups| == 1 then
      var tup := st.currentTups[0];
      var report := [RunExceptionLogged(exc), ErrorReported(exc, OneTuple(tup))];
      var fails := if cfg.autoFail then [Fail(Whole(tup))] else [];
      CommandIdsOne(ErrorReported(exc, OneTuple(tup)));
      assert report == [RunExceptionLogged(exc)] + [ErrorReported(exc, OneTuple(tup))];
      CommandIdsAppend([RunExceptionLogged(exc)], [ErrorReported(exc, OneTuple(tup))]);
      CommandIdsAppend(report, fails);
      report + fails
    else [RunExceptionLogged(exc)]
  }

  /**
   A received tick or ordinary tuple, followed by the exception handler when
   its hook raised, is acked or failed exactly once between them: acked when
   the hook returned and `auto_ack` is set, failed when it raised and
   `auto_fail` is set, and never both.
   */
  lemma TupleAnsweredAtMostOnce(cfg: Config, st: State, tup: StormTuple, fault: Option<Exc>)
    requires !IsHeartbeat(tup)
    ensures var s := Run(cfg, st, Received(tup), fault);
            var whole := s.log + (if s.raised.Some? then HandleRunException(cfg, s.state, s.raised.value) else []);
            && Acked(whole) == (if fault.None? && cfg.autoAck then [tup.id] else [])
            && Failed(whole) == (if fault.Some? && cfg.autoFail then [tup.id] else [])
            && |Acked(whole)| + |Failed(whole)| <= 1
  {
    var s := Run(cfg, st, Received(tup), fault);
    var h := if s.raised.Some? then HandleRunException(cfg, s.state, s.raised.value) else [];
    CommandIdsAppend(s.log, h);
  }

  /**
   Why `_current_tups` is reset at the end of a step: when the next
   `read_tuple` fails, the exception handler fails nothing, in particular not
   the tuple that was already handled.
   */
  lemma ReadFailureAfterCompletedStepFailsNothing(cfg: Config, st: State, input: Read, fault: Option<Exc>,
                                                  next: Option<Exc>, e: Exc)
    ensures var s := Run(cfg, st, input, fault);
            var s2 := Run(cfg, s.state, ReadFailed(e), next);
            s.raised.None? ==> s2.raised == Some(e) && Failed(HandleRunException(cfg, s2.state, e)) == []
  {
  }

  /** While a received tuple is handled, an emit without explicit anchors is anchored to exactly that tuple. */
  lemma EmitDuringHandlingAnchorsToIncoming(cfg: Config, tup: StormTuple, payload: Payload, stream: Option<string>,
                                            directTask: Option<int>, needTaskIds: bool)
    ensures Emit(cfg, Receive(tup).currentTups, payload, stream, None, directTask, needTaskIds).anchors
            == (if cfg.autoAnchor then [tup.id] else [])
  {
  }
}

=== FILE: component.dfy ===
/**
 The vocabulary every bolt shares: the tuples Storm delivers, references to
 them, and the messages a component writes back to Storm. The Component base
 class (reading tuples, sending messages, reporting errors) is not part of
 this model; each of its effects is represented by appending a `Message` to
 an output log, so that a step of a bolt is a pure function returning the
 log it wrote.
 */
module Component {
  import opened Wrappers

  /** An exception, identified by its description; its contents are never inspected. */
  type Exc = string

  /** The values carried by an emitted tuple. */
  type Payload = seq<string>

  /** A tuple as delivered by Storm: its id, origin and values. */
  datatype StormTuple = StormTuple(id: string, component: string, stream: string, task: int, values: Payload)

  /** What `ack`, `fail` and `emit`'s anchors accept: a Tuple instance or a bare tuple id. */
  datatype TupleRef = Whole(tup: StormTuple) | Bare(id: string)

  /** The outcome of `read_tuple`: a tuple, or the exception reading raised. */
  datatype Read = Received(tup: StormTuple) | ReadFailed(exc: Exc)

  /** The value `group_key` returns; `NoKey` stands for Python's `None`, the default key. */
  datatype GroupKey = NoKey | Key(value: string)

  /** What is handed to the Component base class's `emit`. */
  datatype EmitRequest = EmitRequest(payload: Payload, stream: Option<string>, anchors: seq<string>,
                                     directTask: Option<int>, needTaskIds: bool)

  /** The second argument of `raise_exception`: one tuple (Bolt) or a list of them (BatchingBolt). */
  datatype Culprit = OneTuple(tup: StormTuple) | TupleList(tups: seq<StormTuple>)

  /** The two tuple commands a bolt sends back to Storm. */
  datatype Command = AckCmd | FailCmd

  /** One entry of a bolt's output log. */
  datatype Message =
    | Sync                                              // reply to a heartbeat
    | TupleCommand(command: Command, id: string)        // {'command': 'ack'|'fail', 'id': id}
    | Emitted(request: EmitRequest)                     // Component.emit
    | ErrorReported(exc: Exc, culprit: Culprit)         // Component.raise_exception
    | RunExceptionLogged(exc: Exc)                      // Component._handle_run_exception
    | Processed(tup: StormTuple)                        // a call of the user's process
    | TickProcessed(tup: StormTuple)                    // a call of the user's process_tick
    | BatchProcessed(key: GroupKey, batch: seq<StormTuple>) // a call of the user's process_batch

  /** The id a reference stands for: a Tuple's `id`, or the bare id itself. */
  function RefId(r: TupleRef): string {
    match r
    case Whole(t) => t.id
    case Bare(id) => id
  }

  /** The ids of a list of tuples, position by position. */
  function Ids(ts: seq<StormTuple>): (ids: seq<string>)
    ensures |ids| == |ts|
    ensures forall i :: 0 <= i < |ts| ==> ids[i] == ts[i].id
  {
    if ts == [] then [] else [ts[0].id] + Ids(ts[1..])
  }

  lemma IdsAppend(a: seq<StormTuple>, b: seq<StormTuple>)
    ensures Ids(a + b) == Ids(a) + Ids(b)
  {
    var l, r := Ids(a + b), Ids(a) + Ids(b);
    assert |l| == |r|;
    forall i | 0 <= i < |l| ensures l[i] == r[i] {
      if i < |a| { assert (a + b)[i] == a[i]; } else { assert (a + b)[i] == b[i - |a|]; }
    }
  }

  predicate IsHeartbeat(t: StormTuple) {
    t.task == -1 && t.stream == "__heartbeat"
  }

  predicate IsTick(t: StormTuple) {
    t.component == "__system" && t.stream == "__tick"
  }

  /** The three ways a bolt's run step treats an incoming tuple. */
  datatype Kind = Heartbeat | Tick | Ordinary

  /** Sorts an incoming tuple; the heartbeat test is made first, then the tick test. */
  function Classify(t: StormTuple): (k: Kind)
    ensures k == Heartbeat <==> IsHeartbeat(t)
    ensures k == Tick <==> IsTick(t)
    ensures k == Ordinary <==> !IsHeartbeat(t) && !IsTick(t)
  {
    if IsHeartbeat(t) then Heartbeat
    else if IsTick(t) then Tick
    else Ordinary
  }

  /** The ids a log sends command `c` for, in the order it sends them. */
  function CommandIds(log: seq<Message>, c: Command): seq<string>
  {
    if log == [] then []
    else (if log[0].TupleCommand? && log[0].command == c then [log[0].id] else [])
         + CommandIds(log[1..], c)
  }

  /** The ids a log acknowledges. */
  function Acked(log: seq<Message>): seq<string> {
    CommandIds(log, AckCmd)
  }

  /** The ids a log fails. */
  function Failed(log: seq<Message>): seq<string> {
    CommandIds(log, FailCmd)
  }

  /** A one-message log sends a command only if that message is the command. */
  lemma CommandIdsOne(m: Message)
    ensures forall c :: CommandIds([m], c) == (if m.TupleCommand? && m.command == c then [m.id] else [])
  {
    assert [m][1..] == [];
  }

  /** Commands sent by two consecutive stretches of a log are those of each, in order. */
  lemma {:induction false} CommandIdsAppend(a: seq<Message>, b: seq<Message>)
    ensures forall c :: CommandIds(a + b, c) == CommandIds(a, c) + CommandIds(b, c)
  {
    if a == [] {
      assert a + b == b;
    } else {
      assert (a + b)[0] == a[0];
      assert (a + b)[1..] == a[1..] + b;
      CommandIdsAppend(a[1..], b);
    }
  }

  /** `CommandIdsAppend` for three consecutive stretches. */
  lemma CommandIdsThree(a: seq<Message>, b: seq<Message>, c: seq<Message>)
    ensures forall d :: CommandIds(a + b + c, d) == CommandIds(a, d) + CommandIds(b, d) + CommandIds(c, d)
  {
    CommandIdsAppend(a, b);
    CommandIdsAppend(a + b, c);
  }
}

=== FILE: sparse.dfy ===
/**
 The `sparse` command line: discovery of subcommand modules and dispatch of
 the parsed command line.

 Discovery walks the entries `pkgutil.iter_modules` lists for the directory of
 the command modules. An entry is skipped if it is a package or if it is
 already in `sys.modules`; otherwise it is imported, and its
 `subparser_hook` is called if the module defines one. The module table
 `sys.modules` is a set of module names; every effect is an `Event` in a log.

 The code as written tests the BARE module name (`submit`) against
 `sys.modules`, while importing registers the package-qualified name
 (`streamparse.bin.submit`). `Fold(..., asWritten := true)` models that
 test and is the one `Main` uses; `Fold(..., asWritten := false)` tests the
 qualified name, which is what makes a second discovery a no-op.
 */
module Sparse {
  import opened Wrappers

  /** One entry listed by `pkgutil.iter_modules`, and whether its module defines `subparser_hook`. */
  datatype Candidate = Candidate(name: string, isPkg: bool, hasHook: bool)

  /** The package the command modules live in (`__package__` of the command-line module). */
  const Package: string := "streamparse.bin"

  /** The name under which `importlib.import_module('.' + name, Package)` registers a module. */
  function Qualified(name: string): string {
    Package + "." + name
  }

  lemma QualifiedInjective(a: string, b: string)
    ensures Qualified(a) == Qualified(b) ==> a == b
  {
    if Qualified(a) == Qualified(b) {
      assert a == Qualified(a)[|Package| + 1..];
      assert b == Qualified(b)[|Package| + 1..];
    }
  }

  lemma QualifiedHasDot(name: string)
    ensures '.' in Qualified(name)
  {
    assert Qualified(name)[|Package|] == '.';
  }

  /** What the command line does, in order. */
  datatype Event =
    | ModuleExecuted(name: string)     // the body of a newly imported module runs
    | HookCalled(name: string)         // module.subparser_hook(subparsers)
    | ArgsParsed                       // parser.parse_args()
    | HandlerCalled(handler: string)   // args.func(args)
    | HelpPrinted                      // parser.print_help()

  /** The module table after discovery and the events of discovery. */
  datatype Discovery = Discovery(loaded: set<string>, events: seq<Event>)

  /** The skip test of the discovery loop; as written it looks up the bare module name. */
  predicate Skipped(c: Candidate, loaded: set<string>, asWritten: bool) {
    c.isPkg || (if asWritten then c.name else Qualified(c.name)) in loaded
  }

  /**
   `importlib.import_module`: the module's body runs only if the qualified
   name is not yet in the table, and afterwards the table holds it.
   */
  function Import(loaded: set<string>, name: string): (d: Discovery)
    ensures d.loaded == loaded + {Qualified(name)}
    ensures ModuleExecuted(Qualified(name)) in d.events <==> Qualified(name) !in loaded
    ensures forall e :: e in d.events ==> e == ModuleExecuted(Qualified(name))
    ensures d.events == (if Qualified(name) in loaded then [] else [ModuleExecuted(Qualified(name))])
  {
    var q := Qualified(name);
    if q in loaded then Discovery(loaded, []) else Discovery(loaded + {q}, [ModuleExecuted(q)])
  }

  /**
   One iteration of the discovery loop: a skipped entry changes nothing; any
   other is imported, and its hook is called iff the module defines one.
   */
  function Visit(c: Candidate, loaded: set<string>, asWritten: bool): (v: Discovery)
    ensures Skipped(c, loaded, asWritten) ==> v == Discovery(loaded, [])
    ensures !Skipped(c, loaded, asWritten) ==> v.loaded == loaded + {Qualified(c.name)}
    ensures !Skipped(c, loaded, asWritten) ==> (HookCalled(c.name) in v.events <==> c.hasHook)
    ensures forall e :: e in v.events ==> e == ModuleExecuted(Qualified(c.name)) || e == HookCalled(c.name)
  {
    if Skipped(c, loaded, asWritten) then Discovery(loaded, [])
    else
      var d := Import(loaded, c.name);
      Discovery(d.loaded, d.events + (if c.hasHook then [HookCalled(c.name)] else []))
  }

  /** The discovery loop over the listed entries, in listing order. */
  function Fold(cands: seq<Candidate>, loaded: set<string>, asWritten: bool): (d: Discovery)
    ensures loaded <= d.loaded
    ensures forall e :: e in d.events ==> e.ModuleExecuted? || e.HookCalled?
  {
    if cands == [] then Discovery(loaded, [])
    else
      var v := Visit(cands[0], loaded, asWritten);
      var rest := Fold(cands[1..], v.loaded, asWritten);
      Discovery(rest.loaded, v.events + rest.events)
  }

  /**
   Each module body runs exactly once for every name the table gains during
   discovery, and never for any other module.
   */
  lemma {:induction false} ExecutedOnce(cands: seq<Candidate>, loaded: set<string>, asWritten: bool)
    ensures var d := Fold(cands, loaded, asWritten);
            forall q :: multiset(d.events)[ModuleExecuted(q)] == (if q in d.loaded && q !in loaded then 1 else 0)
  {
    if cands != [] {
      var v := Visit(cands[0], loaded, asWritten);
      VisitExecutesOnce(cands[0], loaded, asWritten);
      ExecutedOnce(cands[1..], v.loaded, asWritten);
    }
  }

  /** One visit runs the body of at most the one module it adds to the table. */
  lemma VisitExecutesOnce(c: Candidate, loaded: set<string>, asWritten: bool)
    ensures var v := Visit(c, loaded, asWritten);
            forall q :: multiset(v.events)[ModuleExecuted(q)] == (if q in v.loaded && q !in loaded then 1 else 0)
  {
  }

  /**
   `load_suparsers` as written, which skips an entry whose bare name is in
   `sys.modules`. For entries with plain names, the hooks called are those of
   the reference `Contributors` against the initial table, and the table
   gains the qualified name of exactly the non-package entries whose bare
   name was not loaded.
   */
  function DiscoverAsWritten(cands: seq<Candidate>, loaded: set<string>): (d: Discovery)
    ensures loaded <= d.loaded
    ensures forall e :: e in d.events ==> e.ModuleExecuted? || e.HookCalled?
    ensures forall q :: multiset(d.events)[ModuleExecuted(q)] == (if q in d.loaded && q !in loaded then 1 else 0)
    ensures BareNames(cands) ==> Hooks(d.events) == Contributors(cands, loaded, true)
    ensures BareNames(cands) ==>
              && (forall i :: 0 <= i < |cands| && !cands[i].isPkg && cands[i].name !in loaded ==>
                    Qualified(cands[i].name) in d.loaded)
              && (forall n :: n in d.loaded && n !in loaded ==>
                    exists i :: 0 <= i < |cands| && !cands[i].isPkg && cands[i].name !in loaded
                                && n == Qualified(cands[i].name))
  {
    ExecutedOnce(cands, loaded, true);
    if BareNames(cands) then
      AsWrittenHooks(cands, loaded);
      AsWrittenLoaded(cands, loaded);
      Fold(cands, loaded, true)
    else Fold(cands, loaded, true)
  }

  /**
   `load_suparsers` with the skip test on the name the import registers. For
   entries with distinct names, the hooks called are those of `Contributors`
   against the initial table, and the table gains the qualified name of
   exactly the non-package entries.
   */
  function Discover(cands: seq<Candidate>, loaded: set<string>): (d: Discovery)
    ensures loaded <= d.loaded
    ensures forall e :: e in d.events ==> e.ModuleExecuted? || e.HookCalled?
    ensures forall q :: multiset(d.events)[ModuleExecuted(q)] == (if q in d.loaded && q !in loaded then 1 else 0)
    ensures DistinctNames(cands) ==> Hooks(d.events) == Contributors(cands, loaded, false)
    ensures forall i :: 0 <= i < |cands| && !cands[i].isPkg ==> Qualified(cands[i].name) in d.loaded
    ensures forall n :: n in d.loaded && n !in loaded ==>
              exists i :: 0 <= i < |cands| && !cands[i].isPkg && n == Qualified(cands[i].name)
  {
    LoadedAfterDiscovery(cands, loaded);
    ExecutedOnce(cands, loaded, false);
    if DistinctNames(cands) then
      HooksFollowEnumeration(cands, loaded);
      Fold(cands, loaded, false)
    else Fold(cands, loaded, false)
  }

  /** The modules whose hooks were called, in call order. */
  function Hooks(events: seq<Event>): seq<string> {
    if events == [] then []
    else (if events[0].HookCalled? then [events[0].name] else []) + Hooks(events[1..])
  }

  lemma {:induction false} HooksAppend(a: seq<Event>, b: seq<Event>)
    ensures Hooks(a + b) == Hooks(a) + Hooks(b)
  {
    if a == [] {
      assert a + b == b;
    } else {
      assert (a + b)[0] == a[0];
      assert (a + b)[1..] == a[1..] + b;
      HooksAppend(a[1..], b);
    }
  }

  /** The handlers called, in call order. */
  function HandlerCalls(events: seq<Event>): seq<string> {
    if events == [] then []
    else (if events[0].HandlerCalled? then [events[0].handler] else []) + HandlerCalls(events[1..])
  }

  lemma {:induction false} HandlerCallsAppend(a: seq<Event>, b: seq<Event>)
    ensures HandlerCalls(a + b) == HandlerCalls(a) + HandlerCalls(b)
  {
    if a == [] {
      assert a + b == b;
    } else {
      assert (a + b)[0] == a[0];
      assert (a + b)[1..] == a[1..] + b;
      HandlerCallsAppend(a[1..], b);
    }
  }

  /** Reference definition: the entries, in listing order, that pass the skip test against the initial table and define the hook. */
  function Contributors(cands: seq<Candidate>, loaded: set<string>, asWritten: bool): seq<string> {
    if cands == [] then []
    else (if !Skipped(cands[0], loaded, asWritten) && cands[0].hasHook then [cands[0].name] else [])
         + Contributors(cands[1..], loaded, asWritten)
  }

  /** `pkgutil.iter_modules` lists each name of a directory once. */
  predicate DistinctNames(cands: seq<Candidate>) {
    forall i, j :: 0 <= i < j < |cands| ==> cands[i].name != cands[j].name
  }

  /** One visit: the skip rules, and the hook called exactly when an imported module defines it. */
  lemma VisitSkipRules(c: Candidate, loaded: set<string>, asWritten: bool)
    ensures var v := Visit(c, loaded, asWritten);
            && (Skipped(c, loaded, asWritten) ==> v == Discovery(loaded, []))
            && Hooks(v.events) == (if !Skipped(c, loaded, asWritten) && c.hasHook then [c.name] else [])
            && (c.isPkg ==> v.events == [] && v.loaded == loaded)
  {
    var v := Visit(c, loaded, asWritten);
    if !Skipped(c, loaded, asWritten) {
      var d := Import(loaded, c.name);
      var hook := if c.hasHook then [HookCalled(c.name)] else [];
      HooksAppend(d.events, hook);
      assert Hooks(d.events) == [] by {
        if d.events != [] {
          assert d.events[1..] == [];
        }
      }
      if c.hasHook {
        assert hook[1..] == [];
      }
    }
  }

  /** Adding a name no entry imports under does not change who contributes. */
  lemma {:induction false} ContributorsIgnore(cands: seq<Candidate>, loaded: set<string>, q: string)
    requires forall i :: 0 <= i < |cands| ==> Qualified(cands[i].name) != q
    ensures Contributors(cands, loaded + {q}, false) == Contributors(cands, loaded, false)
  {
    if cands != [] {
      ContributorsIgnore(cands[1..], loaded, q);
    }
  }

  /**
   With distinct entry names, discovery calls the hooks of exactly the
   entries that pass the skip test against the table it started from, once
   each, in listing order.
   */
  lemma {:induction false} HooksFollowEnumeration(cands: seq<Candidate>, loaded: set<string>)
    requires DistinctNames(cands)
    ensures Hooks(Fold(cands, loaded, false).events) == Contributors(cands, loaded, false)
  {
    if cands != [] {
      var c := cands[0];
      var v := Visit(c, loaded, false);
      VisitSkipRules(c, loaded, false);
      HooksAppend(v.events, Fold(cands[1..], v.loaded, false).events);
      assert DistinctNames(cands[1..]) by {
        forall i, j | 0 <= i < j < |cands[1..]| ensures cands[1..][i].name != cands[1..][j].name {
          assert cands[1..][i] == cands[i + 1] && cands[1..][j] == cands[j + 1];
        }
      }
      HooksFollowEnumeration(cands[1..], v.loaded);
      if !Skipped(c, loaded, false) {
        forall i | 0 <= i < |cands[1..]| ensures Qualified(cands[1..][i].name) != Qualified(c.name) {
          assert cands[1..][i] == cands[i + 1];
          QualifiedInjective(cands[1..][i].name, c.name);
        }
        ContributorsIgnore(cands[1..], loaded, Qualified(c.name));
      }
    }
  }

  /**
   After discovery the table holds what it held before plus the qualified
   name of every listed module that is not a package, and nothing else.
   */
  lemma {:induction false} LoadedAfterDiscovery(cands: seq<Candidate>, loaded: set<string>)
    ensures var d := Fold(cands, loaded, false);
            && (forall i :: 0 <= i < |cands| && !cands[i].isPkg ==> Qualified(cands[i].name) in d.loaded)
            && (forall n :: n in d.loaded && n !in loaded ==>
                  exists i :: 0 <= i < |cands| && !cands[i].isPkg && n == Qualified(cands[i].name))
  {
    if cands != [] {
      var c := cands[0];
      var v := Visit(c, loaded, false);
      var d := Fold(cands, loaded, false);
      LoadedAfterDiscovery(cands[1..], v.loaded);
      forall i | 0 <= i < |cands| && !cands[i].isPkg ensures Qualified(cands[i].name) in d.loaded {
        if i > 0 {
          assert cands[1..][i - 1] == cands[i];
        }
      }
      forall n | n in d.loaded && n !in loaded
        ensures exists i :: 0 <= i < |cands| && !cands[i].isPkg && n == Qualified(cands[i].name)
      {
        if n in v.loaded {
          assert !cands[0].isPkg && n == Qualified(cands[0].name);
        } else {
          var i :| 0 <= i < |cands[1..]| && !cands[1..][i].isPkg && n == Qualified(cands[1..][i].name);
          assert cands[i + 1] == cands[1..][i];
        }
      }
    }
  }

  /** A table that already holds every listed module makes discovery do nothing. */
  lemma {:induction false} DiscoveryOverLoadedTableIsNoOp(cands: seq<Candidate>, loaded: set<string>)
    requires forall i :: 0 <= i < |cands| && !cands[i].isPkg ==> Qualified(cands[i].name) in loaded
    ensures Discover(cands, loaded) == Discovery(loaded, [])
  {
    if cands != [] {
      assert Visit(cands[0], loaded, false) == Discovery(loaded, []);
      forall i | 0 <= i < |cands[1..]| && !cands[1..][i].isPkg ensures Qualified(cands[1..][i].name) in loaded {
        assert cands[1..][i] == cands[i + 1];
      }
      DiscoveryOverLoadedTableIsNoOp(cands[1..], loaded);
    }
  }

  /** Running discovery a second time over the same entries imports nothing and calls no hook. */
  lemma RediscoveryIsNoOp(cands: seq<Candidate>, loaded: set<string>)
    ensures var d := Discover(cands, loaded);
            Discover(cands, d.loaded) == Discovery(d.loaded, [])
  {
    LoadedAfterDiscovery(cands, loaded);
    DiscoveryOverLoadedTableIsNoOp(cands, Discover(cands, loaded).loaded);
  }

  /** As written, discovery adds only dotted names, so membership of a dot-free name never changes. */
  lemma {:induction false} AsWrittenKeepsBareNames(cands: seq<Candidate>, loaded: set<string>)
    ensures forall n :: '.' !in n ==> (n in DiscoverAsWritten(cands, loaded).loaded <==> n in loaded)
  {
    if cands != [] {
      var v := Visit(cands[0], loaded, true);
      QualifiedHasDot(cands[0].name);
      assert forall n :: '.' !in n ==> (n in v.loaded <==> n in loaded);
      AsWrittenKeepsBareNames(cands[1..], v.loaded);
    }
  }

  /** Tables that agree on the bare entry names make the as-written skip test agree. */
  lemma {:induction false} ContributorsAsWrittenAgree(cands: seq<Candidate>, l1: set<string>, l2: set<string>)
    requires forall i :: 0 <= i < |cands| ==> (cands[i].name in l1 <==> cands[i].name in l2)
    ensures Contributors(cands, l1, true) == Contributors(cands, l2, true)
  {
    if cands != [] {
      assert cands[0].name in l1 <==> cands[0].name in l2;
      forall i | 0 <= i < |cands[1..]| ensures (cands[1..][i].name in l1 <==> cands[1..][i].name in l2) {
        assert cands[1..][i] == cands[i + 1];
      }
      ContributorsAsWrittenAgree(cands[1..], l1, l2);
    }
  }

  /** Entry names as `pkgutil.iter_modules` yields them for one directory: plain, without a dot. */
  predicate BareNames(cands: seq<Candidate>) {
    forall i :: 0 <= i < |cands| ==> '.' !in cands[i].name
  }

  /** As written, the hooks called are those of the non-package entries whose bare name is not in the table. */
  lemma {:induction false} AsWrittenHooks(cands: seq<Candidate>, loaded: set<string>)
    requires BareNames(cands)
    ensures Hooks(Fold(cands, loaded, true).events) == Contributors(cands, loaded, true)
  {
    if cands != [] {
      var c := cands[0];
      var v := Visit(c, loaded, true);
      VisitSkipRules(c, loaded, true);
      HooksAppend(v.events, Fold(cands[1..], v.loaded, true).events);
      BareNamesTail(cands);
      AsWrittenHooks(cands[1..], v.loaded);
      VisitKeepsBareNames(c, loaded, cands[1..]);
      ContributorsAsWrittenAgree(cands[1..], v.loaded, loaded);
    }
  }

  lemma BareNamesTail(cands: seq<Candidate>)
    requires cands != [] && BareNames(cands)
    ensures BareNames(cands[1..])
  {
    forall i | 0 <= i < |cands[1..]| ensures '.' !in cands[1..][i].name {
      assert cands[1..][i] == cands[i + 1];
    }
  }

  /** One as-written visit adds only a dotted name, so bare entry names stay in or out of the table. */
  lemma VisitKeepsBareNames(c: Candidate, loaded: set<string>, cands: seq<Candidate>)
    requires BareNames(cands)
    ensures forall i :: 0 <= i < |cands| ==> (cands[i].name in Visit(c, loaded, true).loaded <==> cands[i].name in loaded)
  {
    QualifiedHasDot(c.name);
  }

  /**
   On a table that holds neither the bare nor the qualified name of any
   listed entry (a first run), the skip test as written and the corrected one
   select the same hooks.
   */
  lemma {:induction false} FirstDiscoveryAgrees(cands: seq<Candidate>, loaded: set<string>)
    requires forall i :: 0 <= i < |cands| ==> cands[i].name !in loaded && Qualified(cands[i].name) !in loaded
    requires DistinctNames(cands) && BareNames(cands)
    ensures Hooks(DiscoverAsWritten(cands, loaded).events) == Hooks(Discover(cands, loaded).events)
  {
    AsWrittenHooks(cands, loaded);
    HooksFollowEnumeration(cands, loaded);
    ContributorsFresh(cands, loaded);
  }

  lemma {:induction false} ContributorsFresh(cands: seq<Candidate>, loaded: set<string>)
    requires forall i :: 0 <= i < |cands| ==> cands[i].name !in loaded && Qualified(cands[i].name) !in loaded
    ensures Contributors(cands, loaded, true) == Contributors(cands, loaded, false)
  {
    if cands != [] {
      assert cands[0].name !in loaded && Qualified(cands[0].name) !in loaded;
      forall i | 0 <= i < |cands[1..]|
        ensures cands[1..][i].name !in loaded && Qualified(cands[1..][i].name) !in loaded
      {
        assert cands[1..][i] == cands[i + 1];
      }
      ContributorsFresh(cands[1..], loaded);
    }
  }

  /**
   As written, the table gains the qualified name of exactly the non-package
   entries whose bare name was not loaded: an entry whose qualified name is
   loaded but whose bare name is not is still visited.
   */
  lemma {:induction false} AsWrittenLoaded(cands: seq<Candidate>, loaded: set<string>)
    requires BareNames(cands)
    ensures var d := Fold(cands, loaded, true);
            && (forall i :: 0 <= i < |cands| && !cands[i].isPkg && cands[i].name !in loaded ==>
                  Qualified(cands[i].name) in d.loaded)
            && (forall n :: n in d.loaded && n !in loaded ==>
                  exists i :: 0 <= i < |cands| && !cands[i].isPkg && cands[i].name !in loaded
                              && n == Qualified(cands[i].name))
  {
    if cands != [] {
      var c := cands[0];
      var v := Visit(c, loaded, true);
      var d := Fold(cands, loaded, true);
      BareNamesTail(cands);
      AsWrittenLoaded(cands[1..], v.loaded);
      VisitKeepsBareNames(c, loaded, cands[1..]);
      forall i | 0 <= i < |cands| && !cands[i].isPkg && cands[i].name !in loaded
        ensures Qualified(cands[i].name) in d.loaded
      {
        if i > 0 {
          assert cands[1..][i - 1] == cands[i];
        }
      }
      forall n | n in d.loaded && n !in loaded
        ensures exists i :: 0 <= i < |cands| && !cands[i].isPkg && cands[i].name !in loaded
                            && n == Qualified(cands[i].name)
      {
        if n in v.loaded {
          assert !cands[0].isPkg && cands[0].name !in loaded && n == Qualified(cands[0].name);
        } else {
          var i :| 0 <= i < |cands[1..]| && !cands[1..][i].isPkg && cands[1..][i].name !in v.loaded
                   && n == Qualified(cands[1..][i].name);
          assert cands[i + 1] == cands[1..][i];
        }
      }
    }
  }

  /** As written, a second discovery over the same entries calls every hook of the first one again. */
  lemma AsWrittenRerunRepeatsHooks(cands: seq<Candidate>, loaded: set<string>)
    requires BareNames(cands)
    ensures var d := DiscoverAsWritten(cands, loaded);
            Hooks(DiscoverAsWritten(cands, d.loaded).events) == Hooks(d.events)
  {
    var d := DiscoverAsWritten(cands, loaded);
    AsWrittenHooks(cands, loaded);
    AsWrittenHooks(cands, d.loaded);
    AsWrittenKeepsBareNames(cands, loaded);
    ContributorsAsWrittenAgree(cands, d.loaded, loaded);
  }

  /**
   As written, a second discovery over the same entries imports nothing new:
   the table stays as the first run left it, and the only events are hook
   calls, so every module body has still run exactly once.
   */
  lemma AsWrittenRerunImportsNothing(cands: seq<Candidate>, loaded: set<string>)
    requires BareNames(cands)
    ensures var d := DiscoverAsWritten(cands, loaded);
            var d2 := DiscoverAsWritten(cands, d.loaded);
            && d2.loaded == d.loaded
            && forall e :: e in d2.events ==> e.HookCalled?
  {
    var d := DiscoverAsWritten(cands, loaded);
    var d2 := DiscoverAsWritten(cands, d.loaded);
    AsWrittenKeepsBareNames(cands, loaded);
    forall i | 0 <= i < |cands| && !cands[i].isPkg && cands[i].name !in d.loaded
      ensures Qualified(cands[i].name) in d.loaded
    {
      assert '.' !in cands[i].name;
    }
    forall q ensures ModuleExecuted(q) !in d2.events {
      assert multiset(d2.events)[ModuleExecuted(q)] == 0;
    }
  }

  /** The smallest instance: one command module `submit` with a hook, discovered twice from an empty table. */
  lemma AsWrittenRerunCallsHookAgain()
    ensures var cands := [Candidate("submit", false, true)];
            var d := DiscoverAsWritten(cands, {});
            && Hooks(d.events) == ["submit"]
            && Hooks(DiscoverAsWritten(cands, d.loaded).events) == ["submit"]
  {
    var cands := [Candidate("submit", false, true)];
    AsWrittenHooks(cands, {});
    AsWrittenRerunRepeatsHooks(cands, {});
    assert cands[1..] == [];
  }

  /** How the handler `args.func` ends. */
  datatype Outcome =
    | Returned                  // returns normally
    | RaisedAttributeError      // raises AttributeError
    | Raised(exc: string)       // raises any other exception
    | Exited(status: int)       // calls sys.exit(status)

  /** How the process ends: with an exit status, or with an exception nobody caught. */
  datatype Termination = ExitStatus(code: int) | Uncaught(exc: string)

  /** The events of one invocation and how it ended. */
  datatype Session = Session(events: seq<Event>, termination: Termination)

  /** The status `sys.exit(1)` gives the help fallback. */
  const HelpStatus: int := 1

  /**
   The `try`/`except AttributeError` of `main`: the handler the parsed
   arguments carry is called once; with no handler, or when the handler
   itself raises `AttributeError`, help is printed and the status is 1.
   */
  function Dispatch(func: Option<string>, outcome: Outcome): (r: Session)
    ensures forall e :: e in r.events ==> e.HandlerCalled? || e.HelpPrinted?
    ensures func.None? ==> r == Session([HelpPrinted], ExitStatus(HelpStatus))
    ensures func.Some? ==> |r.events| >= 1 && r.events[0] == HandlerCalled(func.value)
    ensures HandlerCalls(r.events) == (if func.Some? then [func.value] else [])
    ensures HelpPrinted in r.events <==> func.None? || outcome.RaisedAttributeError?
    ensures HelpPrinted in r.events ==> r.termination == ExitStatus(HelpStatus)
    ensures func.Some? && outcome.Returned? ==> r.termination == ExitStatus(0)
    ensures func.Some? && outcome.Exited? ==> r.termination == ExitStatus(outcome.status)
    ensures func.Some? && outcome.Raised? ==> r.termination == Uncaught(outcome.exc)
  {
    match func
    case None => Session([HelpPrinted], ExitStatus(HelpStatus))
    case Some(h) =>
      var call := [HandlerCalled(h)];
      assert HandlerCalls(call) == [h] by { assert call[1..] == []; }
      match outcome
      case Returned => Session(call, ExitStatus(0))
      case Exited(n) => Session(call, ExitStatus(n))
      case Raised(e) => Session(call, Uncaught(e))
      case RaisedAttributeError =>
        HandlerCallsAppend(call, [HelpPrinted]);
        assert HandlerCalls([HelpPrinted]) == [] by { assert [HelpPrinted][1..] == []; }
        Session(call + [HelpPrinted], ExitStatus(HelpStatus))
  }

  /**
   `main`: discovery as written (`load_suparsers`) over the listed entries
   and the initial module table, then parsing, which sees the hooks discovery
   called (`parse` maps them to the handler the parsed arguments carry, if
   any), then dispatch.
   */
  function Main(cands: seq<Candidate>, loaded: set<string>, parse: seq<string> -> Option<string>,
                outcome: Outcome): (r: Session)
    ensures var d := DiscoverAsWritten(cands, loaded);
            var n := |d.events|;
            && n < |r.events| && r.events[n] == ArgsParsed
            && (forall i :: 0 <= i < |r.events| && i != n ==> r.events[i] != ArgsParsed)
            && (forall i :: 0 <= i < n ==> r.events[i].ModuleExecuted? || r.events[i].HookCalled?)
            && (forall i :: n < i < |r.events| ==> r.events[i].HandlerCalled? || r.events[i].HelpPrinted?)
            && r.events[..n] == d.events
            && r.events[n + 1..] == Dispatch(parse(Hooks(d.events)), outcome).events
    ensures Hooks(r.events) == Hooks(DiscoverAsWritten(cands, loaded).events)
    ensures BareNames(cands) ==> Hooks(r.events) == Contributors(cands, loaded, true)
    ensures var func := parse(Hooks(r.events));
            && HandlerCalls(r.events) == (if func.Some? then [func.value] else [])
            && (func.None? ==> HelpPrinted in r.events && r.termination == ExitStatus(HelpStatus))
            && r.termination == Dispatch(func, outcome).termination
  {
    var d := DiscoverAsWritten(cands, loaded);
    var run := Dispatch(parse(Hooks(d.events)), outcome);
    SessionShape(d.events, run.events);
    Session(d.events + [ArgsParsed] + run.events, run.termination)
  }

  /** Discovery events, then the parse, then dispatch events: no hook runs after the parse. */
  lemma SessionShape(discovered: seq<Event>, dispatched: seq<Event>)
    requires forall e :: e in discovered ==> e.ModuleExecuted? || e.HookCalled?
    requires forall e :: e in dispatched ==> e.HandlerCalled? || e.HelpPrinted?
    ensures var events := discovered + [ArgsParsed] + dispatched;
            && events[|discovered|] == ArgsParsed
            && events[..|discovered|] == discovered && events[|discovered| + 1..] == dispatched
            && (forall i :: 0 <= i < |events| && i != |discovered| ==> events[i] != ArgsParsed)
            && (forall i :: 0 <= i < |discovered| ==> events[i].ModuleExecuted? || events[i].HookCalled?)
            && (forall i :: |discovered| < i < |events| ==> events[i].HandlerCalled? || events[i].HelpPrinted?)
            && Hooks(events) == Hooks(discovered)
            && HandlerCalls(events) == HandlerCalls(dispatched)
  {
    SessionOrder(discovered, dispatched);
    HooksAppend(discovered + [ArgsParsed], dispatched);
    HooksAppend(discovered, [ArgsParsed]);
    HandlerCallsAppend(discovered + [ArgsParsed], dispatched);
    HandlerCallsAppend(discovered, [ArgsParsed]);
    assert Hooks([ArgsParsed]) == [] && HandlerCalls([ArgsParsed]) == [] by {
      assert [ArgsParsed][1..] == [];
    }
    NoHooksAmongDispatchEvents(dispatched);
    NoHandlerAmongDiscoveryEvents(discovered);
  }

  /**
   The parse is the only `ArgsParsed` of a session: every event before it is
   discovery, every event after it is dispatch, so no hook follows it.
   */
  lemma SessionOrder(discovered: seq<Event>, dispatched: seq<Event>)
    requires forall e :: e in discovered ==> e.ModuleExecuted? || e.HookCalled?
    requires forall e :: e in dispatched ==> e.HandlerCalled? || e.HelpPrinted?
    ensures var events := discovered + [ArgsParsed] + dispatched;
            && events[|discovered|] == ArgsParsed
            && (forall i :: 0 <= i < |events| && i != |discovered| ==> events[i] != ArgsParsed)
            && (forall i :: 0 <= i < |discovered| ==> events[i].ModuleExecuted? || events[i].HookCalled?)
            && (forall i :: |discovered| < i < |events| ==> events[i].HandlerCalled? || events[i].HelpPrinted?)
            && (forall i, j :: 0 <= i < j < |events| && events[i] == ArgsParsed ==> !events[j].HookCalled?)
  {
    var events := discovered + [ArgsParsed] + dispatched;
    forall i | 0 <= i < |discovered|
      ensures events[i].ModuleExecuted? || events[i].HookCalled?
    {
      assert events[i] == discovered[i] && discovered[i] in discovered;
    }
    forall j | |discovered| < j < |events|
      ensures events[j].HandlerCalled? || events[j].HelpPrinted?
    {
      assert events[j] == dispatched[j - |discovered| - 1];
      assert dispatched[j - |discovered| - 1] in dispatched;
    }
  }

  lemma {:induction false} NoHooksAmongDispatchEvents(events: seq<Event>)
    requires forall e :: e in events ==> e.HandlerCalled? || e.HelpPrinted?
    ensures Hooks(events) == []
  {
    if events != [] {
      assert events[0] in events;
      NoHooksAmongDispatchEvents(events[1..]);
    }
  }

  lemma {:induction false} NoHandlerAmongDiscoveryEvents(events: seq<Event>)
    requires forall e :: e in events ==> e.ModuleExecuted? || e.HookCalled?
    ensures HandlerCalls(events) == []
  {
    if events != [] {
      assert events[0] in events;
      NoHandlerAmongDiscoveryEvents(events[1..]);
    }
  }
}

=== FILE: wrappers.dfy ===
/** Failure-carrying shapes shared by the bolt and command-line models. */
module Wrappers {

  /** A value that may be absent (Python's `None`). */
  datatype Option<+T> = None | Some(value: T)

  /** Either a value or the error that was raised instead of returning one. */
  datatype Result<+R, +E> = Success(value: R) | Failure(error: E)
}
